=== FILE: README.md ===
# Electoral College calculator — a Dafny model

This project models the core of a small Python calculator for the United
States Electoral College:

- the configuration class `ElectoralConfig` in `config.py`: the 51-row state
  table, the region lists, the swing-state and historical-leaning sets, the
  consistency check `validate_configuration`, and the lookups built on them;
- the calculator `ElectoralCollege` in `vote_calculator.py`:
  - the constructor;
  - input validation;
  - the per-party electoral-vote totals;
  - the winner loop;
  - each party's remaining path to 270;
  - the fewest uncalled states a party still needs;
  - the breakdown by region;
  - the assembly of an `ElectionResult`.

Every operation is a pure function. A Python exception becomes an `Err` of a
`Result`, carrying the exception class and its payload.

## How the model is organised

| module | file | models |
|---|---|---|
| `Enums` | `enums.dfy` | `State` (51 members), `Party`, `Region`; enumeration lemmas |
| `Results` | `results.dfy` | `Option`, `Result`, `Check` |
| `Errors` | `errors.dfy` | dictionary keys and values, and the exceptions raised |
| `Weights` | `weights.dfy` | the sum of state weights over a set of states |
| `Config` | `config.dfy` | `ElectoralConfig`: table, lists, `validate_configuration`, lookups |
| `Shipped` | `shipped.dfy` | facts about the data as shipped, and the New Hampshire row |
| `Calculator` | `engine.dfy` | the constructor and the weight table it builds |
| `Validation` | `validation.dfy` | called/uncalled states, `validate_state`, `validate_party`, `validate_inputs` |
| `Totals` | `totals.dfy` | an insertion-ordered `Dict[K, int]` and the `d[k] = d.get(k, 0) + n` update |
| `Aggregation` | `aggregation.dfy` | `calculate_electoral_votes` |
| `Reachability` | `reachability.dfy` | `_calculate_minimum_states_needed` |
| `Election` | `election.dfy` | the winner loop, `get_remaining_paths`, `check_winner`, `create_election_result` |
| `Regional` | `regional.dfy` | `get_regional_results` |
| `Scenarios` | `scenarios.dfy` | worked cases on the shipped and corrected data |

### Representation choices

- **States, parties and regions.** The two-letter codes in the region lists
  and in the swing and historical sets become `State` constructors.
- **Dictionary arguments.** A `Dict[State, Optional[Party]]` argument is the
  sequence of its items in iteration order, with distinct keys (`IsDict`).
  Keys and values can be foreign objects (`ForeignKey`, `ForeignValue`). This
  keeps the source's `isinstance` checks and its error order expressible.
  `None` is `Uncalled`.
- **Totals.** A `Dict[Party, int]` of totals is an association list in
  insertion order, because the winner loop returns the first party at 270
  or more in that order.
- **Split-vote hook.** The branch for states that split their votes is a
  parameter `split: set<State>`. The source's `calculate_split_vote_results`
  returns an empty dictionary, so a split state adds nothing to any total.
  `CalculateElectoralVotes` is the corrected calculation of the second
  finding below.
- **Constructor error.** The constructor rejects a configuration that fails
  its check with `InvalidVoteCountError`, as the code does
  (`vote_calculator.py:32-33`).
- **`ElectionResult` fields.** The record has the fields the two callers
  pass: year, state results, totals, winner, paths and notes. The timestamp
  is left out.
- **Which modules the calculator imports (an assumption).** The relative
  imports of `vote_calculator.py:6-9` do not resolve cleanly against the
  files of this repository. `vote_calculator.py:6` imports `Region` from
  `.enums`, but neither `enums.py` nor `electoral_college/enums.py` defines
  a `Region`; only `config.py:21` does. The model assumes:
  - `.config` is the sibling `config.py`. The second finding depends on
    this, because that file defines no `is_split_vote_state`.
  - `ElectionResult` has the fields its two callers pass. The sibling
    `models.py:14-19` declares only totals, winner, paths and a timestamp.
    If that were the class imported, the calls at `vote_calculator.py:266-272`
    and `:382-390` would raise TypeError for the unknown `year`,
    `state_results` and `notes` arguments.

## Model

| member | source | states |
|---|---|---|
| Config.ValidateConfiguration | config.py:180-239 | The check passes exactly when the declared total is 538, the table has rows for exactly the 51 states, and every row has at least 3 votes, votes equal to its districts + 2, a region tag, and a place in some region list. Any failure gives false; nothing is raised. |
| Config.GetRegion | config.py:117-134 | Raises KeyError naming the state exactly when the table has no row for it. Otherwise it returns that row's region tag. |
| Config.GetStatesInRegion | config.py:136-147 | A region with a list gives that whole list, in its order. A region with no list gives the empty list. Every state returned is on that region's list. |
| Config.IsSwingState | config.py:149-160 | True exactly for the six SWING_STATES codes of config.py:110 (AZ, GA, MI, NV, PA and WI), and false for every other state. A swing state has no historical leaning. |
| Config.GetHistoricalLeaning | config.py:163-177 | Returns DEM exactly for the historically Democratic states and REP exactly for the historically Republican ones. Returns None exactly for states on neither list. |
| Config.ListVotes | config.py:256-259 | The vote sum of a region list succeeds exactly when every listed state has a row, and then equals the sum of their weights. Otherwise it raises KeyError. |
| Config.SwingCountDistinct | config.py:260-263 | For a list without repeats, counting swing states position by position gives the number of distinct swing states in it. |
| Config.GetRegionSummary | config.py:242-264 | A summary exists exactly when every listed state has a row. Its name is the region's value and its size is the list's length. Its votes are the position-by-position sum of the listed states' weights. For a repeat-free list, its votes are also the weight of the listed states and its swing count is the number of swing states among them. |
| Shipped.ShippedTotals | config.py:32-94 | The shipped table has 51 rows, each worth at least 3 votes, summing to 538. 270 is the least majority of 538. |
| Shipped.RegionListsMatchTags | config.py:96-102 | There are five region lists. A state is in a region's list exactly when its row carries that region's tag, so the lists are disjoint and cover the 51 states. |
| Shipped.StatesInRegionMatchTags | config.py:137-147 | The states of a region, read through the configuration, are exactly the states tagged with that region. |
| Shipped.ClassificationFacts | config.py:109-114 | There are six swing states, none with a historical leaning. The two historical lists are disjoint. The split-vote set is exactly the rows flagged as split. |
| Shipped.NortheastSummary | config.py:242-264 | The Northeast summary has 9 states, 94 votes and 1 swing state. |
| Shipped.MidwestSummary | config.py:242-264 | The Midwest summary has 12 states, 115 votes and 2 swing states. |
| Shipped.SouthSummary | config.py:242-264 | The South summary has 16 states, 196 votes and 1 swing state. |
| Shipped.WestSummary | config.py:242-264 | The West summary has 13 states, 130 votes and 2 swing states. |
| Shipped.DistrictSummary | config.py:242-264 | The District summary has 1 state, 3 votes and 0 swing states. |
| Shipped.ShippedConfigRejected | config.py:35 | The New Hampshire row has 4 votes but 1 district. It is the only row that breaks votes == districts + 2, so the shipped configuration fails its own check. |
| Shipped.CorrectedConfigAccepted | config.py:222 | With New Hampshire given 2 districts, and every other row unchanged, the configuration passes the check. |
| Calculator.NewEngine | vote_calculator.py:27-45 | Construction succeeds exactly when the configuration passes its check. Otherwise it raises InvalidVoteCountError. On success each state's weight is its row's electoral votes. |
| Calculator.ValidWeights | vote_calculator.py:35-38 | A constructed engine weighs exactly the 51 states, each at 3 votes or more. |
| Validation.ValidState | vote_calculator.py:109-123 | A valid key is a state whose weight is at least 3. On a constructed engine, a key is valid exactly when it is a state. |
| Validation.ValidParty | vote_calculator.py:125-135 | A value is valid exactly when it is a party or None. |
| Validation.CalledWeight | vote_calculator.py:167-171 | With a non-negative weight table the called weight is never negative. |
| Validation.CalledStates | vote_calculator.py:104-107 | A state is called exactly when some item maps it to a value other than None. |
| Validation.UncalledStates | vote_calculator.py:94-107 | A state is uncalled exactly when the weight table has it and no item maps it to a value other than None. |
| Validation.UncalledPartition | vote_calculator.py:94-107 | Uncalled and called states are disjoint. Together they make up the weight table's states. |
| Validation.UncalledWeight | vote_calculator.py:292 | After validation, the weight of the uncalled states plus the called weight is the weight of the whole table. |
| Validation.CalledWeightIsSum | vote_calculator.py:167-171 | The item-by-item sum of called weights equals the weight of the set of called states. |
| Validation.ValidateInputs | vote_calculator.py:137-176 | InvalidStateError exactly when some key is not a known state of at least 3 votes, naming exactly those keys. Otherwise InvalidPartyError exactly when some value is neither a party nor None, naming exactly those values. Otherwise InvalidVoteCountError exactly when the called weight exceeds 538. Passes exactly when none of these holds. |
| Validation.PassedInputs | vote_calculator.py:152-176 | After validation every key is a known state and every value a party or None, and the called states weigh at most 538. |
| Validation.VoteCountErrorUnreachable | vote_calculator.py:166-176 | For a non-negative weight table summing to at most 538, the vote-count error can never be raised, since a dictionary calls each state at most once. |
| Totals.Bump | vote_calculator.py:210-212 | `d[k] = d.get(k, 0) + n` grows the dictionary by one entry exactly when k is a new key. |
| Totals.BumpKeys | vote_calculator.py:210-212 | `d[k] = d.get(k, 0) + n` adds k to the keys, keeps keys distinct, and appends only for a new key. |
| Totals.BumpTotalFor | vote_calculator.py:210-212 | The update adds n to k's count and leaves every other count unchanged. |
| Totals.BumpSum | vote_calculator.py:210-212 | The update adds n to the sum of all counts. |
| Totals.CountBoundedBySum | vote_calculator.py:257-260 | In non-negative totals, every count lies between 0 and the sum of all counts. |
| Totals.TwoCountsBoundedBySum | vote_calculator.py:257-260 | In non-negative totals, the counts of two different parties together are at most the sum of all counts. |
| Aggregation.Step | vote_calculator.py:203-212 | One iteration adds at most one entry to the totals. An item whose value is None changes nothing. |
| Aggregation.TallyFrom | vote_calculator.py:203-212 | The loop adds at most one entry per item to the totals it starts from. |
| Aggregation.Tally | vote_calculator.py:197-212 | Starting from an empty dictionary, the totals have at most one entry per item. |
| Aggregation.TallyFromTotals | vote_calculator.py:203-212 | After the loop, a party's count is its starting count plus the weight of the states assigned to it outside the split set. |
| Aggregation.TallyFromKeys | vote_calculator.py:203-212 | After the loop, the keys are the starting keys plus exactly the parties assigned some state outside the split set. |
| Aggregation.TallyFromSum | vote_calculator.py:203-212 | After the loop, the sum of counts grows by the weight of the called states outside the split set. |
| Aggregation.CalculateElectoralVotes | vote_calculator.py:179-219 | Fails exactly when validation fails, with the same error. Otherwise its keys are exactly the parties with a state outside the split set. Each party's count is the weight of its states outside the split set, and the counts sum to the weight of the called states outside it. |
| Aggregation.TotalsBounded | vote_calculator.py:197-215 | With non-negative weights, each count lies between 0 and the sum of counts. That sum is at most the called weight, which is at most 538. |
| Aggregation.TotalsOrderIndependent | vote_calculator.py:181-198 | Two enumerations of the same dictionary either both fail or give the same keys and the same counts. |
| Aggregation.CalculateAsWritten | vote_calculator.py:203-208 | As written, the calculation can succeed only on a dictionary that calls no state, and then gives empty totals. Any other error is a validation error. |
| Aggregation.AsWrittenRejectsCalls | vote_calculator.py:205 | Whenever the inputs pass validation and call at least one state, the as-written calculation raises the missing-method error. The corrected calculation succeeds on the same inputs. |
| Reachability.SortDesc | vote_calculator.py:341-344 | The available states are reordered heaviest first: a permutation that is sorted. |
| Reachability.Ranked | vote_calculator.py:341-344 | The ranking lists each available state once, heaviest first. |
| Reachability.ScanFrom | vote_calculator.py:346-355 | The count lies between the states already taken and the number of states + 1. It equals the states already taken only when their weight already reaches the need. |
| Reachability.ScanFacts | vote_calculator.py:346-355 | The scan stops at the first prefix whose weight reaches the need. If none does, it returns one more than the number of states. |
| Reachability.PrefixIsHeaviest | vote_calculator.py:341-353 | No set of k available states weighs more than the first k of the heaviest-first ranking. |
| Reachability.MinimumStatesNeeded | vote_calculator.py:332-355 | The count is 0 exactly when nothing more is needed. It always lies between 0 and the number of available states + 1. |
| Reachability.MinimumStatesNeededOptimal | vote_calculator.py:332-355 | Any count up to the number of states is reached by the heaviest states of that count, and no smaller set of available states reaches the need. The sentinel (number of states + 1) is returned exactly when no set of available states reaches it. |
| Reachability.MinimumAgreesWithPossible | vote_calculator.py:301-303 | With non-negative weights, the count is at most the number of available states exactly when their total weight covers the need. |
| Election.FirstWinner | vote_calculator.py:255-260 | The loop names a party exactly when some count reaches 270. The party it names is the first in the totals' order with 270 or more. |
| Election.WinnerUnique | vote_calculator.py:257-260 | For non-negative totals with distinct keys summing to at most 538, the loop names p exactly when p's count is 270 or more, since two parties cannot both reach 270. |
| Election.PathFor | vote_calculator.py:296-304 | Current and needed votes add up to 270. The path is possible exactly when current plus the uncalled weight reaches 270. The fewest-states count is 0 exactly when the party already holds 270. |
| Election.Paths | vote_calculator.py:294-306 | Every party gets a path built from its count, the uncalled weight and the uncalled states. |
| Election.RemainingPaths | vote_calculator.py:276-306 | Fails with the calculation's error when validation fails. Succeeds exactly when validation passes and every requested state is in the weight table. Each party then has current = its states' weight, needed = 270 - current, possible = needed ≤ the uncalled weight, and the fewest states count. |
| Election.RemainingPathsMissingState | vote_calculator.py:292 | A requested state that the weight table lacks raises KeyError naming one such state. |
| Election.Analyse | vote_calculator.py:367-390 | The analysis succeeds exactly when validation passes, fails with that error otherwise, and carries the given year, state results and notes. |
| Election.AnalyseParts | vote_calculator.py:368-380 | A successful analysis holds the calculated totals, the winner the loop finds in them, and the paths over the uncalled states. |
| Election.CheckWinner | vote_calculator.py:243-273 | Succeeds exactly when validation passes. The result is stamped with the current year and has no notes. |
| Election.CreateElectionResult | vote_calculator.py:361-390 | Succeeds exactly when validation passes. The result carries the given year and notes. |
| Election.TotalsWinner | vote_calculator.py:253-260 | With non-negative weights, the loop over the calculated totals names p exactly when p's states outside the split set weigh 270 or more. |
| Election.AnalyseWinner | vote_calculator.py:371-375 | On a constructed engine, the result names p exactly when p's states outside the split set weigh 270 or more. It has a winner exactly when some party reaches 270. |
| Election.PathFacts | vote_calculator.py:297-303 | With non-negative weights, a path is possible exactly when its fewest-states count is at most the number of uncalled states. That count is 0 exactly when the party already holds 270. |
| Election.AnalysePaths | vote_calculator.py:291-306 | On a constructed engine, every party has a path over the uncalled states: current is the weight of its states outside the split set, needed = 270 - current, and possible holds exactly when the uncalled weight covers needed, and exactly when the fewest-states count is at most the number of uncalled states. That count is 0 exactly when the party needs nothing more. |
| Election.AnalyseOrderIndependent | vote_calculator.py:253-265 | Two enumerations of the same dictionary give the same outcome, the same winner and the same paths. |
| Regional.EmptyRegions | vote_calculator.py:321 | The breakdown starts with an empty dictionary for each of the five regions: every region is present, and its dictionary has no entries. |
| Regional.Advance | vote_calculator.py:325-328 | One step keeps all five regions present and leaves every region other than the item's own unchanged. |
| Regional.RegionalFrom | vote_calculator.py:323-328 | The loop succeeds exactly when every called item's key is a state with a row carrying a region tag, and then every region is present. |
| Regional.GetRegionalResults | vote_calculator.py:308-330 | The breakdown succeeds exactly when every called state can be placed in a region, and then covers all five regions. |
| Regional.RegionalFirstError | vote_calculator.py:323-326 | A failure is the error for the first called item that cannot be placed: KeyError when its key has no row, ValueError when its row has no region tag. |
| Regional.RegionalContents | vote_calculator.py:323-330 | Each region's count for a party is the weight of that region's states assigned to the party. |
| Regional.RegionalFromKeys | vote_calculator.py:323-328 | The loop adds to a region's keys exactly the values given to called states of that region, and never repeats a key. |
| Regional.RegionalKeys | vote_calculator.py:321-330 | In a successful breakdown, a region's dictionary has no repeated key. A value is one of its keys exactly when the dictionary gives that value to a called state of the region, so a region with no called state stays empty. |
| Regional.ValidInputsLocatable | vote_calculator.py:325 | On a constructed engine, every key that passed validation can be placed in a region. |
| Regional.RegionalMatchesNational | vote_calculator.py:308-330 | On a constructed engine, inputs that pass validation can always be broken down by region. A party's five regional counts add up to its national total plus the weight of its states in the split set. The breakdown has no split-vote branch, while the national loop leaves split states out. |
| Scenarios.ShippedAndCorrectedEngines | vote_calculator.py:29-33 | The constructor raises on the configuration as shipped and succeeds once New Hampshire's row is corrected. |
| Scenarios.CaliforniaCall | vote_calculator.py:203-212 | One call for California passes validation, makes the as-written calculation raise, and gives the party 54 votes in the corrected one. |
| Scenarios.BigThreeNeedTwo | vote_calculator.py:338-355 | With California, Texas and Florida uncalled, 80 votes need two states. |
| Scenarios.BigThreeOutOfReach | vote_calculator.py:338-355 | 125 votes are beyond the three states' 124 and give the sentinel 4. A need of 0 gives 0. |
| Scenarios.BigThreePath | vote_calculator.py:296-303 | A party at 200 with those three states uncalled needs 70 more, can still win, and needs two states. |
| Scenarios.WinnerOfCounts | vote_calculator.py:257-260 | The first party at 270 or more wins, and a 269-269 count has no winner. |

## Left out

- Logging, `lru_cache` and `datetime`. The caches only memoise pure calls. The current year of `check_winner` is a parameter, and the result's timestamp is dropped.
- `format_percentage` (floating point and string formatting) and `get_state_summary` (a dictionary of display strings).
- The `isinstance(state_results, dict)` check of `validate_inputs` (vote_calculator.py:149-150). The model's argument is always a dictionary.
- Validation.ValidateInputs: reports the offending keys and values as sets. The source builds lists, which keep the iteration order, and for values, any repeats.
- Election.RemainingPaths: when several requested states are missing from the weight table, the KeyError names one of them, not necessarily the one Python's set iteration reaches first.
- Config.GetStatesInRegion: the region lists hold `State` values, so the KeyError of `State[code]` for a code that names no state cannot arise.
- Regional.ValidInputsLocatable: holds only for configurations whose region tags are `Region` values. The configuration check tests a tag only for being non-empty (config.py:228), so a row tagged with another string builds an engine, passes validation, and then raises ValueError at vote_calculator.py:325.
- Regional.RegionalMatchesNational: the breakdown always succeeding rests on the same assumption, that every region tag is a `Region` value.
- Regional.RegionalFirstError: only a missing region tag raises ValueError. A tag that is not the value of any `Region` cannot be written in the model.
- `calculate_split_vote_results` is an empty stub in the source. The split-vote branch is the `split` parameter, and no district-level rule for Maine or Nebraska is modelled.
- A foreign value (`ForeignValue`) stands for a hashable object that is neither a party nor None, and validation rejects it with InvalidPartyError. `check_winner` and `create_election_result` first build `frozenset(state_results.items())` (vote_calculator.py:253, 368), so an unhashable value such as a list or a dict raises TypeError before validation runs. That TypeError is not modelled.
- The totals of `Election.Analyse` list the parties in the order of the caller's dictionary. The source iterates `dict(frozenset(...))`, whose order follows hashing, so the key order of `vote_totals` can differ. The counts and the winner do not depend on the order (`Aggregation.TotalsOrderIndependent`, `Election.WinnerUnique`).
- Error messages are not modelled. An error carries its class and the offending keys, values or state.
- `ElectoralCollege.py` and `utils.py` are not part of this model.

## Findings

| source | as written | input that shows it | evidently intended | confidence | as-written member | corrected member |
|---|---|---|---|---|---|---|
| config.py:35 | New Hampshire has 4 electoral votes and 1 congressional district, but the check at config.py:222 requires votes == districts + 2 | constructing the calculator with the shipped configuration: the check returns false and the constructor raises InvalidVoteCountError | New Hampshire has 2 districts (4 = 2 + 2) | not executed | Shipped.ShippedConfigRejected | Shipped.CorrectedConfigAccepted |
| vote_calculator.py:205 | the calculation calls `self.config.is_split_vote_state`, which `ElectoralConfig` does not define, so every called state raises AttributeError | the dictionary {CA: DEM}: it passes validation, then the lookup fails | check membership in `SPLIT_VOTE_STATES` (config.py:109), then add the state's votes to the party | not executed | Aggregation.CalculateAsWritten | Aggregation.CalculateElectoralVotes |

Both findings have a worked case in `Scenarios.ShippedAndCorrectedEngines` and
`Scenarios.CaliforniaCall`. The rest of the model builds on the corrected
definitions:

- The New Hampshire finding: `Config.CorrectedConfig` carries the corrected
  row.
- The AttributeError finding: `Aggregation.CalculateElectoralVotes`, with the
  split-vote branch as its `split` parameter.

=== FILE: aggregation.dfy ===
/** The per-party vote totals of a results dictionary. */
module Aggregation {
  import opened Enums
  import opened Results
  import opened Errors
  import opened Weights
  import opened Config
  import opened Calculator
  import opened Validation
  import opened Totals

  /** The states a dictionary assigns to party p. */
  function PartyStates(a: Assignment, p: Party): (ss: set<State>)
    ensures forall s :: s in ss <==> exists i | 0 <= i < |a| :: a[i] == (StateKey(s), Called(p))
  {
    set i | 0 <= i < |a| && a[i].0.StateKey? && a[i].1 == Called(p) :: a[i].0.state
  }

  /** The parties that receive weight: those called for some state outside
      the split set. */
  function Contenders(a: Assignment, split: set<State>): (ps: set<Party>)
    ensures forall p :: p in ps <==> exists s :: s !in split && s in PartyStates(a, p)
  {
    set i | 0 <= i < |a| && a[i].0.StateKey? && a[i].1.Called? && a[i].0.state !in split :: a[i].1.party
  }

  /** One iteration of the loop.  A called state outside the split set adds
      its weight to its party; a split state goes through the split-vote
      hook, whose breakdown is empty, so it adds nothing. */
  function Step(w: map<State, int>, split: set<State>, t: Totals<Party>, x: Entry): (r: Totals<Party>)
    ensures |t| <= |r| <= |t| + 1
    ensures x.1.Uncalled? ==> r == t
  {
    if x.0.StateKey? && x.1.Called? && x.0.state !in split then Bump(t, x.1.party, Get(w, x.0.state))
    else t
  }

  /** The loop over the items, starting from the totals t. */
  function TallyFrom(w: map<State, int>, split: set<State>, t: Totals<Party>, a: Assignment): (r: Totals<Party>)
    ensures |t| <= |r| <= |t| + |a|
    decreases |a|
  {
    if a == [] then t else TallyFrom(w, split, Step(w, split, t, a[0]), a[1..])
  }

  /** The loop over the items, starting from an empty dictionary. */
  function Tally(w: map<State, int>, split: set<State>, a: Assignment): (r: Totals<Party>)
    ensures |r| <= |a|
  {
    TallyFrom(w, split, [], a)
  }

  lemma PartyStatesCons(a: Assignment, p: Party)
    requires a != []
    ensures PartyStates(a, p) ==
      (if a[0].0.StateKey? && a[0].1 == Called(p) then {a[0].0.state} else {}) + PartyStates(a[1..], p)
  {
    var rest := a[1..];
    forall s | s in PartyStates(a, p) && !(a[0].0 == StateKey(s) && a[0].1 == Called(p))
      ensures s in PartyStates(rest, p)
    {
      var i :| 0 <= i < |a| && a[i] == (StateKey(s), Called(p));
      assert rest[i - 1] == a[i];
    }
    forall s | s in PartyStates(rest, p) ensures s in PartyStates(a, p) {
      var i :| 0 <= i < |rest| && rest[i] == (StateKey(s), Called(p));
      assert a[i + 1] == rest[i];
    }
  }

  /** The weight one item adds to party p. */
  function Contribution(w: map<State, int>, split: set<State>, x: Entry, p: Party): int {
    if x.0.StateKey? && x.1 == Called(p) && x.0.state !in split then Get(w, x.0.state) else 0
  }

  lemma StepTotalFor(w: map<State, int>, split: set<State>, t: Totals<Party>, x: Entry, p: Party)
    ensures TotalFor(Step(w, split, t, x), p) == TotalFor(t, p) + Contribution(w, split, x, p)
  {
    if x.0.StateKey? && x.1.Called? && x.0.state !in split {
      BumpTotalFor(t, x.1.party, Get(w, x.0.state), p);
    }
  }

  lemma UnsplitPartyCons(w: map<State, int>, split: set<State>, a: Assignment, p: Party)
    requires IsDict(a) && a != []
    ensures SumOver(w, PartyStates(a, p) - split) ==
      SumOver(w, PartyStates(a[1..], p) - split) + Contribution(w, split, a[0], p)
  {
    PartyStatesCons(a, p);
    var rest := PartyStates(a[1..], p) - split;
    if a[0].0.StateKey? && a[0].1 == Called(p) && a[0].0.state !in split {
      var s := a[0].0.state;
      HeadNotInTail(a);
      assert s !in rest;
      assert PartyStates(a, p) - split == rest + {s};
      SumOverAdd(w, rest, s);
    } else {
      assert PartyStates(a, p) - split == rest;
    }
  }

  /** Each party's count grows by the weight of the states assigned to it
      outside the split set. */
  lemma {:induction false} TallyFromTotals(w: map<State, int>, split: set<State>, t: Totals<Party>, a: Assignment, p: Party)
    requires IsDict(a)
    ensures TotalFor(TallyFrom(w, split, t, a), p) == TotalFor(t, p) + SumOver(w, PartyStates(a, p) - split)
    decreases |a|
  {
    if a == [] {
      assert PartyStates(a, p) - split == {};
      SumOverEmpty(w);
    } else {
      TailIsDict(a);
      TallyFromTotals(w, split, Step(w, split, t, a[0]), a[1..], p);
      StepTotalFor(w, split, t, a[0], p);
      UnsplitPartyCons(w, split, a, p);
    }
  }

  /** The parties the first item adds to, and those of the rest. */
  lemma ContendersCons(a: Assignment, split: set<State>)
    requires a != []
    ensures Contenders(a, split) ==
      (if a[0].0.StateKey? && a[0].1.Called? && a[0].0.state !in split then {a[0].1.party} else {})
      + Contenders(a[1..], split)
  {
    var rest := a[1..];
    forall q | q in Contenders(a, split) && !(a[0].0.StateKey? && a[0].1 == Called(q) && a[0].0.state !in split)
      ensures q in Contenders(rest, split)
    {
      var i :| 0 <= i < |a| && a[i].0.StateKey? && a[i].1 == Called(q) && a[i].0.state !in split;
      assert rest[i - 1] == a[i];
    }
    forall q | q in Contenders(rest, split) ensures q in Contenders(a, split) {
      var i :| 0 <= i < |rest| && rest[i].0.StateKey? && rest[i].1 == Called(q) && rest[i].0.state !in split;
      assert a[i + 1] == rest[i];
    }
  }

  lemma StepKeys(w: map<State, int>, split: set<State>, t: Totals<Party>, x: Entry)
    requires Keyed(t)
    ensures Keyed(Step(w, split, t, x))
    ensures Keys(Step(w, split, t, x)) ==
      Keys(t) + (if x.0.StateKey? && x.1.Called? && x.0.state !in split then {x.1.party} else {})
  {
    if x.0.StateKey? && x.1.Called? && x.0.state !in split {
      BumpKeys(t, x.1.party, Get(w, x.0.state));
    }
  }

  /** The keys of the totals: the parties that received weight, each once. */
  lemma {:induction false} TallyFromKeys(w: map<State, int>, split: set<State>, t: Totals<Party>, a: Assignment)
    requires Keyed(t)
    ensures Keyed(TallyFrom(w, split, t, a))
    ensures Keys(TallyFrom(w, split, t, a)) == Keys(t) + Contenders(a, split)
    decreases |a|
  {
    if a == [] {
      assert Contenders(a, split) == {};
    } else {
      StepKeys(w, split, t, a[0]);
      TallyFromKeys(w, split, Step(w, split, t, a[0]), a[1..]);
      ContendersCons(a, split);
    }
  }

  /** The weight one item adds to the sum of all counts. */
  function CalledContribution(w: map<State, int>, split: set<State>, x: Entry): int {
    if x.0.StateKey? && NotNone(x.1) && x.0.state !in split then Get(w, x.0.state) else 0
  }

  lemma StepSum(w: map<State, int>, split: set<State>, t: Totals<Party>, x: Entry)
    requires ValidParty(x.1)
    ensures Sum(Step(w, split, t, x)) == Sum(t) + CalledContribution(w, split, x)
  {
    if x.0.StateKey? && x.1.Called? && x.0.state !in split {
      BumpSum(t, x.1.party, Get(w, x.0.state));
    }
  }

  lemma UnsplitCalledCons(w: map<State, int>, split: set<State>, a: Assignment)
    requires IsDict(a) && a != []
    ensures SumOver(w, CalledStates(a) - split) ==
      SumOver(w, CalledStates(a[1..]) - split) + CalledContribution(w, split, a[0])
  {
    CalledStatesCons(a);
    var rest := CalledStates(a[1..]) - split;
    if a[0].0.StateKey? && NotNone(a[0].1) && a[0].0.state !in split {
      var s := a[0].0.state;
      HeadNotInTail(a);
      assert s !in rest;
      assert CalledStates(a) - split == rest + {s};
      SumOverAdd(w, rest, s);
    } else {
      assert CalledStates(a) - split == rest;
    }
  }

  /** The counts add up to the weight of the called states outside the
      split set (every value is a party or None). */
  lemma {:induction false} TallyFromSum(w: map<State, int>, split: set<State>, t: Totals<Party>, a: Assignment)
    requires IsDict(a)
    requires forall i | 0 <= i < |a| :: ValidParty(a[i].1)
    ensures Sum(TallyFrom(w, split, t, a)) == Sum(t) + SumOver(w, CalledStates(a) - split)
    decreases |a|
  {
    if a == [] {
      assert CalledStates(a) - split == {};
      SumOverEmpty(w);
    } else {
      assert ValidParty(a[0].1);
      assert forall i | 0 <= i < |a[1..]| :: ValidParty(a[1..][i].1) by {
        forall i | 0 <= i < |a[1..]| ensures ValidParty(a[1..][i].1) {
          assert a[1..][i] == a[i + 1];
        }
      }
      TailIsDict(a);
      TallyFromSum(w, split, Step(w, split, t, a[0]), a[1..]);
      StepSum(w, split, t, a[0]);
      UnsplitCalledCons(w, split, a);
    }
  }

  /** The totals: validation first, then the loop.  Each party's count is
      the weight of the states assigned to it outside the split set, the
      parties listed are exactly those that received weight, and the counts
      add up to the weight of the called states outside the split set. */
  function CalculateElectoralVotes(e: Engine, a: Assignment, split: set<State>): (r: Result<Totals<Party>, Error>)
    requires IsDict(a)
    ensures r.Err? <==> ValidateInputs(e, a).Fail?
    ensures r.Err? ==> r.error == ValidateInputs(e, a).error
    ensures r.Ok? ==> Keyed(r.value) && Keys(r.value) == Contenders(a, split)
    ensures r.Ok? ==> forall p :: TotalFor(r.value, p) == SumOver(e.votes, PartyStates(a, p) - split)
    ensures r.Ok? ==> Sum(r.value) == SumOver(e.votes, CalledStates(a) - split)
  {
    match ValidateInputs(e, a)
    case Fail(err) => Err(err)
    case Pass =>
      TallyFacts(e, a, split);
      Ok(Tally(e.votes, split, a))
  }

  lemma TallyFacts(e: Engine, a: Assignment, split: set<State>)
    requires IsDict(a)
    requires ValidateInputs(e, a).Pass?
    ensures Keyed(Tally(e.votes, split, a)) && Keys(Tally(e.votes, split, a)) == Contenders(a, split)
    ensures forall p :: TotalFor(Tally(e.votes, split, a), p) == SumOver(e.votes, PartyStates(a, p) - split)
    ensures Sum(Tally(e.votes, split, a)) == SumOver(e.votes, CalledStates(a) - split)
  {
    assert Keys<Party>([]) == {};
    TallyFromKeys(e.votes, split, [], a);
    forall p ensures TotalFor(Tally(e.votes, split, a), p) == SumOver(e.votes, PartyStates(a, p) - split) {
      TallyFromTotals(e.votes, split, [], a, p);
    }
    TallyFromSum(e.votes, split, [], a);
  }

  /** With non-negative weights every count lies between 0 and the sum of
      all counts, which is at most the called weight and so at most 538. */
  lemma TotalsBounded(e: Engine, a: Assignment, split: set<State>)
    requires IsDict(a)
    requires forall s: State :: Get(e.votes, s) >= 0
    requires CalculateElectoralVotes(e, a, split).Ok?
    ensures var t := CalculateElectoralVotes(e, a, split).value;
      (forall p :: 0 <= TotalFor(t, p) <= Sum(t)) &&
      Sum(t) <= CalledWeight(e, a) <= TOTAL_ELECTORAL_VOTES
  {
    var t := CalculateElectoralVotes(e, a, split).value;
    var called := CalledStates(a) - split;
    forall p ensures 0 <= TotalFor(t, p) <= Sum(t) {
      SumOverMonotone(e.votes, {}, PartyStates(a, p) - split);
      SumOverEmpty(e.votes);
      SumOverMonotone(e.votes, PartyStates(a, p) - split, called);
    }
    CalledWeightIsSum(e, a);
    SumOverMonotone(e.votes, called, CalledStates(a));
  }

  lemma SameItemsSamePartyStates(a: Assignment, b: Assignment, p: Party)
    requires forall x :: x in a <==> x in b
    ensures PartyStates(a, p) == PartyStates(b, p)
  {
    forall s | s in PartyStates(a, p) ensures s in PartyStates(b, p) {
      var i :| 0 <= i < |a| && a[i] == (StateKey(s), Called(p));
      assert a[i] in b;
    }
    forall s | s in PartyStates(b, p) ensures s in PartyStates(a, p) {
      var i :| 0 <= i < |b| && b[i] == (StateKey(s), Called(p));
      assert b[i] in a;
    }
  }

  lemma SameItemsSameCalled(a: Assignment, b: Assignment)
    requires forall x :: x in a <==> x in b
    ensures CalledStates(a) == CalledStates(b)
  {
    forall s | s in CalledStates(a) ensures s in CalledStates(b) {
      var i :| 0 <= i < |a| && a[i].0 == StateKey(s) && NotNone(a[i].1);
      assert a[i] in b;
    }
    forall s | s in CalledStates(b) ensures s in CalledStates(a) {
      var i :| 0 <= i < |b| && b[i].0 == StateKey(s) && NotNone(b[i].1);
      assert b[i] in a;
    }
  }

  lemma SameItemsSameValidity(e: Engine, a: Assignment, b: Assignment)
    requires IsDict(a) && IsDict(b)
    requires forall x :: x in a <==> x in b
    ensures ValidateInputs(e, a).Pass? <==> ValidateInputs(e, b).Pass?
  {
    if forall i | 0 <= i < |a| :: ValidState(e, a[i].0) && ValidParty(a[i].1) {
      forall i | 0 <= i < |b| ensures ValidState(e, b[i].0) && ValidParty(b[i].1) {
        assert b[i] in a;
      }
    }
    if forall i | 0 <= i < |b| :: ValidState(e, b[i].0) && ValidParty(b[i].1) {
      forall i | 0 <= i < |a| ensures ValidState(e, a[i].0) && ValidParty(a[i].1) {
        assert a[i] in b;
      }
    }
    SameItemsSameCalled(a, b);
    CalledWeightIsSum(e, a);
    CalledWeightIsSum(e, b);
  }

  lemma SameItemsSameContenders(a: Assignment, b: Assignment, split: set<State>)
    requires forall x :: x in a <==> x in b
    ensures Contenders(a, split) == Contenders(b, split)
  {
    forall p ensures PartyStates(a, p) == PartyStates(b, p) {
      SameItemsSamePartyStates(a, b, p);
    }
  }

  /** The totals do not depend on the order in which the items are visited:
      two enumerations of the same items give the same count to every party
      and list the same parties. */
  lemma TotalsOrderIndependent(e: Engine, a: Assignment, b: Assignment, split: set<State>)
    requires IsDict(a) && IsDict(b)
    requires forall x :: x in a <==> x in b
    ensures CalculateElectoralVotes(e, a, split).Ok? <==> CalculateElectoralVotes(e, b, split).Ok?
    ensures CalculateElectoralVotes(e, a, split).Ok? ==>
      var ta := CalculateElectoralVotes(e, a, split).value;
      var tb := CalculateElectoralVotes(e, b, split).value;
      Keys(ta) == Keys(tb) && forall p :: TotalFor(ta, p) == TotalFor(tb, p)
  {
    SameItemsSameValidity(e, a, b);
    SameItemsSameContenders(a, b, split);
    forall p ensures PartyStates(a, p) == PartyStates(b, p) {
      SameItemsSamePartyStates(a, b, p);
    }
  }

  /** As the loop is written: it asks the configuration class for
      `is_split_vote_state`, which that class does not define, so the first
      called item raises AttributeError and only a dictionary with no
      called item gets through (with no totals). */
  function CalculateAsWritten(e: Engine, a: Assignment): (r: Result<Totals<Party>, Error>)
    requires IsDict(a)
    ensures r.Ok? ==> r.value == [] && CalledStates(a) == {}
    ensures r.Err? && !r.error.AttributeError? ==> ValidateInputs(e, a).Fail?
  {
    match ValidateInputs(e, a)
    case Fail(err) => Err(err)
    case Pass =>
      if exists i | 0 <= i < |a| :: NotNone(a[i].1) then Err(AttributeError("is_split_vote_state"))
      else Ok([])
  }

  /** The discrepancy: whenever the inputs pass validation and call at
      least one state, the loop as written fails where the intended loop
      (with any split set) returns totals. */
  lemma AsWrittenRejectsCalls(e: Engine, a: Assignment, split: set<State>)
    requires IsDict(a)
    requires ValidateInputs(e, a).Pass?
    requires CalledStates(a) != {}
    ensures CalculateAsWritten(e, a) == Err(AttributeError("is_split_vote_state"))
    ensures CalculateElectoralVotes(e, a, split).Ok?
  {
    var s :| s in CalledStates(a);
  }
}

=== FILE: config.dfy ===
/** The static reference data of the electoral college and the classmethods
    that read it: the per-state table, the region lists, the special state
    classifications and the consistency check run before the engine starts. */
module Config {
  import opened Enums
  import opened Results
  import opened Errors
  import opened Weights

  const TOTAL_ELECTORAL_VOTES: int := 538
  const VOTES_TO_WIN: int := 270
  const MIN_STATE_VOTES: int := 3

  /** One row of the state table. */
  datatype StateInfo = StateInfo(
    name: string,
    electoralVotes: int,
    congressionalDistricts: int,
    isSplitVote: bool,
    region: Option<Region>)  // None stands for a missing region tag

  /** The class-level data of the configuration: the total it declares, the
      state table and the region lists. */
  datatype Config = Config(
    totalElectoralVotes: int,
    stateData: map<State, StateInfo>,
    regions: map<Region, seq<State>>)

  /** The display name of each state. */
  function StateName(s: State): string {
    match s
    case ME => "Maine"
    case NH => "New Hampshire"
    case VT => "Vermont"
    case MA => "Massachusetts"
    case RI => "Rhode Island"
    case CT => "Connecticut"
    case NY => "New York"
    case NJ => "New Jersey"
    case PA => "Pennsylvania"
    case OH => "Ohio"
    case IN => "Indiana"
    case IL => "Illinois"
    case MI => "Michigan"
    case WI => "Wisconsin"
    case MN => "Minnesota"
    case IA => "Iowa"
    case MO => "Missouri"
    case ND => "North Dakota"
    case SD => "South Dakota"
    case NE => "Nebraska"
    case KS => "Kansas"
    case DE => "Delaware"
    case MD => "Maryland"
    case VA => "Virginia"
    case WV => "West Virginia"
    case NC => "North Carolina"
    case SC => "South Carolina"
    case GA => "Georgia"
    case FL => "Florida"
    case KY => "Kentucky"
    case TN => "Tennessee"
    case AL => "Alabama"
    case MS => "Mississippi"
    case AR => "Arkansas"
    case LA => "Louisiana"
    case OK => "Oklahoma"
    case TX => "Texas"
    case MT => "Montana"
    case ID => "Idaho"
    case WY => "Wyoming"
    case CO => "Colorado"
    case NM => "New Mexico"
    case AZ => "Arizona"
    case UT => "Utah"
    case NV => "Nevada"
    case WA => "Washington"
    case OR => "Oregon"
    case CA => "California"
    case AK => "Alaska"
    case HI => "Hawaii"
    case DC => "District of Columbia"
  }

  /** The electoral votes of each state, in the shipped row order. */
  function ShippedVotes(s: State): int {
    match s
    case ME => 4
    case NH => 4
    case VT => 3
    case MA => 11
    case RI => 4
    case CT => 7
    case NY => 28
    case NJ => 14
    case PA => 19
    case OH => 17
    case IN => 11
    case IL => 19
    case MI => 15
    case WI => 10
    case MN => 10
    case IA => 6
    case MO => 10
    case ND => 3
    case SD => 3
    case NE => 5
    case KS => 6
    case DE => 3
    case MD => 10
    case VA => 13
    case WV => 4
    case NC => 16
    case SC => 9
    case GA => 16
    case FL => 30
    case KY => 8
    case TN => 11
    case AL => 9
    case MS => 6
    case AR => 6
    case LA => 8
    case OK => 7
    case TX => 40
    case MT => 4
    case ID => 4
    case WY => 3
    case CO => 10
    case NM => 5
    case AZ => 11
    case UT => 6
    case NV => 6
    case WA => 12
    case OR => 8
    case CA => 54
    case AK => 3
    case HI => 4
    case DC => 3
  }

  /** The congressional districts of each state, as shipped. */
  function ShippedDistricts(s: State): int {
    match s
    case ME => 2
    case NH => 1
    case VT => 1
    case MA => 9
    case RI => 2
    case CT => 5
    case NY => 26
    case NJ => 12
    case PA => 17
    case OH => 15
    case IN => 9
    case IL => 17
    case MI => 13
    case WI => 8
    case MN => 8
    case IA => 4
    case MO => 8
    case ND => 1
    case SD => 1
    case NE => 3
    case KS => 4
    case DE => 1
    case MD => 8
    case VA => 11
    case WV => 2
    case NC => 14
    case SC => 7
    case GA => 14
    case FL => 28
    case KY => 6
    case TN => 9
    case AL => 7
    case MS => 4
    case AR => 4
    case LA => 6
    case OK => 5
    case TX => 38
    case MT => 2
    case ID => 2
    case WY => 1
    case CO => 8
    case NM => 3
    case AZ => 9
    case UT => 4
    case NV => 4
    case WA => 10
    case OR => 6
    case CA => 52
    case AK => 1
    case HI => 2
    case DC => 1
  }

  /** The region each state row is tagged with. */
  function RegionTag(s: State): Region {
    match s
    case ME => Northeast
    case NH => Northeast
    case VT => Northeast
    case MA => Northeast
    case RI => Northeast
    case CT => Northeast
    case NY => Northeast
    case NJ => Northeast
    case PA => Northeast
    case OH => Midwest
    case IN => Midwest
    case IL => Midwest
    case MI => Midwest
    case WI => Midwest
    case MN => Midwest
    case IA => Midwest
    case MO => Midwest
    case ND => Midwest
    case SD => Midwest
    case NE => Midwest
    case KS => Midwest
    case DE => South
    case MD => South
    case VA => South
    case WV => South
    case NC => South
    case SC => South
    case GA => South
    case FL => South
    case KY => South
    case TN => South
    case AL => South
    case MS => South
    case AR => South
    case LA => South
    case OK => South
    case TX => South
    case MT => West
    case ID => West
    case WY => West
    case CO => West
    case NM => West
    case AZ => West
    case UT => West
    case NV => West
    case WA => West
    case OR => West
    case CA => West
    case AK => West
    case HI => West
    case DC => District
  }

  /** The shipped table row of each state; only Maine and Nebraska split
      their votes. */
  function ShippedInfo(s: State): StateInfo {
    StateInfo(StateName(s), ShippedVotes(s), ShippedDistricts(s), s == ME || s == NE, Some(RegionTag(s)))
  }

  /** The shipped table with the New Hampshire row given its two congressional
      districts, so that its 4 votes are districts + 2 like every other row. */
  function CorrectedInfo(s: State): StateInfo {
    if s == NH then ShippedInfo(NH).(congressionalDistricts := 2) else ShippedInfo(s)
  }

  /** The region lists, each in its shipped order. */
  function NortheastStates(): seq<State> {
    [ME, NH, VT, MA, RI, CT, NY, NJ, PA]
  }

  function MidwestStates(): seq<State> {
    [OH, IN, IL, MI, WI, MN, IA, MO, ND, SD, NE, KS]
  }

  function SouthStates(): seq<State> {
    [DE, MD, VA, WV, NC, SC, GA, FL, KY, TN, AL, MS, AR, LA, OK, TX]
  }

  function WestStates(): seq<State> {
    [MT, ID, WY, CO, NM, AZ, UT, NV, WA, OR, CA, AK, HI]
  }

  function DistrictStates(): seq<State> {
    [DC]
  }

  function ShippedRegions(): map<Region, seq<State>> {
    map[
      Northeast := NortheastStates(),
      Midwest := MidwestStates(),
      South := SouthStates(),
      West := WestStates(),
      District := DistrictStates()
    ]
  }

  function ShippedTable(): (t: map<State, StateInfo>)
    ensures forall s: State :: s in t && t[s] == ShippedInfo(s)
  {
    map s | s in StateSet() :: ShippedInfo(s)
  }

  function CorrectedTable(): (t: map<State, StateInfo>)
    ensures forall s: State :: s in t && t[s] == CorrectedInfo(s)
  {
    map s | s in StateSet() :: CorrectedInfo(s)
  }

  /** The configuration exactly as shipped. */
  const ShippedConfig: Config := Config(TOTAL_ELECTORAL_VOTES, ShippedTable(), ShippedRegions())

  /** The shipped configuration with the corrected New Hampshire row. */
  const CorrectedConfig: Config := Config(TOTAL_ELECTORAL_VOTES, CorrectedTable(), ShippedRegions())

  const SplitVoteStates: set<State> := {ME, NE}
  const SwingStates: set<State> := {AZ, GA, MI, NV, PA, WI}
  const HistoricallyDemocratic: set<State> := {CA, NY, IL, MA}
  const HistoricallyRepublican: set<State> := {TX, WY, ID, UT}

  /** The weight table the engine derives from the state table. */
  function VotesTable(c: Config): (w: map<State, int>)
    ensures w.Keys == c.stateData.Keys
    ensures forall s | s in w :: w[s] == c.stateData[s].electoralVotes
  {
    map s | s in c.stateData :: c.stateData[s].electoralVotes
  }

  /** The display value of a region. */
  function RegionName(r: Region): string {
    match r
    case Northeast => "Northeast"
    case Midwest => "Midwest"
    case South => "South"
    case West => "West"
    case District => "District"
  }

  // ---------------------------------------------------------------------
  // Consistency check
  // ---------------------------------------------------------------------

  /** The state appears in one of the region lists. */
  predicate InSomeRegion(c: Config, s: State) {
    exists r | r in c.regions :: s in c.regions[r]
  }

  /** The four per-row conditions of the consistency check. */
  predicate RowValid(c: Config, s: State)
    requires s in c.stateData
  {
    var info := c.stateData[s];
    && info.electoralVotes >= MIN_STATE_VOTES
    && info.electoralVotes == info.congressionalDistricts + 2
    && info.region.Some?
    && InSomeRegion(c, s)
  }

  /** What a configuration that passes the consistency check looks like:
      the declared total is 538, the table has a row for exactly the 51
      states, and every row passes the per-row conditions. */
  predicate ConfigOk(c: Config) {
    && c.totalElectoralVotes == TOTAL_ELECTORAL_VOTES
    && (forall s: State :: s in c.stateData)
    && (forall s | s in c.stateData :: c.stateData[s].electoralVotes >= MIN_STATE_VOTES)
    && (forall s | s in c.stateData ::
          c.stateData[s].electoralVotes == c.stateData[s].congressionalDistricts + 2)
    && (forall s | s in c.stateData :: c.stateData[s].region.Some?)
    && (forall s | s in c.stateData :: InSomeRegion(c, s))
  }

  /** Walks the rows in order and stops at the first one that fails. */
  function ValidateRows(c: Config, xs: seq<State>): (ok: bool)
    requires forall x | x in xs :: x in c.stateData
    ensures ok <==> forall i | 0 <= i < |xs| :: RowValid(c, xs[i])
  {
    if xs == [] then true
    else if !RowValid(c, xs[0]) then false
    else ValidateRows(c, xs[1..])
  }

  /** The consistency check: the declared total is 538, the table has a row
      for exactly the 51 states, and every row passes the per-row checks.
      Every failure yields false; nothing is raised. */
  function ValidateConfiguration(c: Config): (ok: bool)
    ensures ok <==> ConfigOk(c)
  {
    AllStatesComplete();
    if c.totalElectoralVotes != TOTAL_ELECTORAL_VOTES then false
    else if c.stateData.Keys != StateSet() then false
    else
      var ok := ValidateRows(c, AllStates);
      assert ok ==> forall s | s in c.stateData :: RowValid(c, AllStates[Index(s)]);
      ok
  }

  // ---------------------------------------------------------------------
  // Classification lookups
  // ---------------------------------------------------------------------

  /** The region tag of a state; KeyError when the table has no row for it. */
  function GetRegion(c: Config, s: State): (r: Result<Option<Region>, Error>)
    ensures r.Err? <==> s !in c.stateData
    ensures r.Err? ==> r.error == KeyError(StateKey(s))
    ensures r.Ok? ==> r.value == c.stateData[s].region
  {
    if s in c.stateData then Ok(c.stateData[s].region) else Err(KeyError(StateKey(s)))
  }

  /** The list of a region, empty when the region has none. */
  function GetStatesInRegion(c: Config, r: Region): (xs: seq<State>)
    ensures r !in c.regions ==> xs == []
    ensures r in c.regions ==> xs == c.regions[r]
    ensures forall s | s in xs :: r in c.regions && s in c.regions[r]
  {
    if r in c.regions then c.regions[r] else []
  }

  /** Swing states lean to neither party historically. */
  predicate IsSwingState(s: State)
    ensures IsSwingState(s) <==> s in {AZ, GA, MI, NV, PA, WI}
    ensures IsSwingState(s) ==> GetHistoricalLeaning(s) == None
  {
    s in SwingStates
  }

  /** The party a state historically leans to; the Democratic list is
      consulted first. */
  function GetHistoricalLeaning(s: State): (p: Option<Party>)
    ensures p == Some(DEM) <==> s in HistoricallyDemocratic
    ensures p == Some(REP) <==> s in HistoricallyRepublican
    ensures p == None <==> s !in HistoricallyDemocratic + HistoricallyRepublican
  {
    if s in HistoricallyDemocratic then Some(DEM)
    else if s in HistoricallyRepublican then Some(REP)
    else None
  }

  datatype RegionSummary = RegionSummary(name: string, states: nat, electoralVotes: int, swingStates: nat)

  /** Sums the weights of a list of states; KeyError for the first one the
      table has no row for. */
  function ListVotes(c: Config, xs: seq<State>): (r: Result<int, Error>)
    ensures r.Ok? <==> forall x | x in xs :: x in c.stateData
    ensures r.Ok? ==> r.value == SumW(VotesTable(c), xs)
  {
    if xs == [] then Ok(0)
    else if xs[0] !in c.stateData then Err(KeyError(StateKey(xs[0])))
    else
      var rest :- ListVotes(c, xs[1..]);
      Ok(c.stateData[xs[0]].electoralVotes + rest)
  }

  /** The swing states that occur in a list. */
  function SwingIn(xs: seq<State>): set<State> {
    set x | x in xs && IsSwingState(x)
  }

  /** The number of swing states in a list, counted per position. */
  function SwingCount(xs: seq<State>): nat {
    if xs == [] then 0
    else (if IsSwingState(xs[0]) then 1 else 0) + SwingCount(xs[1..])
  }

  /** Counted per position, a list without repeats counts each swing state
      in it once. */
  lemma {:induction false} SwingCountDistinct(xs: seq<State>)
    requires Distinct(xs)
    ensures SwingCount(xs) == |SwingIn(xs)|
  {
    if xs != [] {
      assert Distinct(xs[1..]);
      SwingCountDistinct(xs[1..]);
      assert xs[0] !in SwingIn(xs[1..]);
      if IsSwingState(xs[0]) {
        assert SwingIn(xs) == SwingIn(xs[1..]) + {xs[0]};
      } else {
        assert SwingIn(xs) == SwingIn(xs[1..]);
      }
    }
  }

  /** For a list without repeats, its vote sum is the sum over its set and
      its swing count the number of swing states in it. */
  lemma DistinctListFacts(c: Config, xs: seq<State>)
    ensures Distinct(xs) ==> SumW(VotesTable(c), xs) == SumOver(VotesTable(c), Elements(xs))
    ensures Distinct(xs) ==> SwingCount(xs) == |SwingIn(xs)|
  {
    if Distinct(xs) {
      SumOverSeq(VotesTable(c), xs);
      SwingCountDistinct(xs);
    }
  }

  /** Name, size, summed weight and swing-state count of a region. */
  function GetRegionSummary(c: Config, r: Region): (res: Result<RegionSummary, Error>)
    ensures res.Ok? <==> forall s | s in GetStatesInRegion(c, r) :: s in c.stateData
    ensures res.Ok? ==> res.value.name == RegionName(r)
    ensures res.Ok? ==> res.value.states == |GetStatesInRegion(c, r)|
    ensures res.Ok? ==> res.value.electoralVotes == SumW(VotesTable(c), GetStatesInRegion(c, r))
    ensures res.Ok? && Distinct(GetStatesInRegion(c, r)) ==>
      && res.value.electoralVotes == SumOver(VotesTable(c), Elements(GetStatesInRegion(c, r)))
      && res.value.swingStates == |SwingIn(GetStatesInRegion(c, r))|
  {
    var states := GetStatesInRegion(c, r);
    var votes :- ListVotes(c, states);
    DistinctListFacts(c, states);
    Ok(RegionSummary(RegionName(r), |states|, votes, SwingCount(states)))
  }
}

=== FILE: election.dfy ===
/** Winner determination, paths to victory and the assembled result. */
module Election {
  import opened Enums
  import opened Results
  import opened Errors
  import opened Weights
  import opened Config
  import opened Calculator
  import opened Validation
  import opened Totals
  import opened Aggregation
  import opened Reachability

  /** The winner loop: the first party, in the totals' order, with at
      least 270 votes. */
  function FirstWinner(t: Totals<Party>): (r: Option<Party>)
    ensures r.Some? <==> exists i | 0 <= i < |t| :: t[i].1 >= VOTES_TO_WIN
    ensures r.Some? ==> exists i | 0 <= i < |t| ::
      && t[i].0 == r.value && t[i].1 >= VOTES_TO_WIN
      && forall j | 0 <= j < i :: t[j].1 < VOTES_TO_WIN
  {
    if t == [] then None
    else if t[0].1 >= VOTES_TO_WIN then Some(t[0].0)
    else
      var r := FirstWinner(t[1..]);
      assert forall i | 0 < i < |t| :: t[i] == t[1..][i - 1];
      r
  }

  /** Since 2 * 270 > 538, at most one party can reach 270: when the counts
      are non-negative and add up to at most 538, the loop names a party
      exactly when that party has 270 votes or more, whatever the order. */
  lemma WinnerUnique(t: Totals<Party>, p: Party)
    requires Keyed(t) && NonNegative(t)
    requires Sum(t) <= TOTAL_ELECTORAL_VOTES
    ensures FirstWinner(t) == Some(p) <==> TotalFor(t, p) >= VOTES_TO_WIN
  {
    var r := FirstWinner(t);
    if r.Some? {
      var i :| 0 <= i < |t| && t[i].0 == r.value && t[i].1 >= VOTES_TO_WIN;
      KeyedLookup(t, i);
      if r.value != p && TotalFor(t, p) >= VOTES_TO_WIN {
        TwoCountsBoundedBySum(t, r.value, p);
        assert false;
      }
    } else if TotalFor(t, p) >= VOTES_TO_WIN {
      if p in Keys(t) {
        var i :| 0 <= i < |t| && t[i].0 == p;
        KeyedLookup(t, i);
      } else {
        AbsentCountsZero(t, p);
      }
    }
  }

  /** A party's standing against the uncalled states. */
  datatype PathAnalysis = PathAnalysis(currentVotes: int, neededVotes: int, possible: bool, minimumStatesNeeded: int)

  /** The path of one party, given its count, the weight of the uncalled
      states and the uncalled states themselves. */
  function PathFor(w: map<State, int>, current: int, remaining: int, uncalled: set<State>): (r: PathAnalysis)
    requires uncalled <= w.Keys
    ensures r.currentVotes + r.neededVotes == VOTES_TO_WIN
    ensures r.possible <==> current + remaining >= VOTES_TO_WIN
    ensures r.minimumStatesNeeded == 0 <==> current >= VOTES_TO_WIN
  {
    var needed := VOTES_TO_WIN - current;
    PathAnalysis(current, needed, needed <= remaining, MinimumStatesNeeded(w, needed, uncalled))
  }

  /** Every party's path, given the totals and the uncalled states. */
  function Paths(w: map<State, int>, totals: Totals<Party>, uncalled: set<State>): (r: map<Party, PathAnalysis>)
    requires uncalled <= w.Keys
    ensures forall p: Party :: p in r && r[p] == PathFor(w, TotalFor(totals, p), SumOver(w, uncalled), uncalled)
  {
    var remaining := SumOver(w, uncalled);
    AllPartiesComplete();
    map p | p in AllParties :: PathFor(w, TotalFor(totals, p), remaining, uncalled)
  }

  /** `get_remaining_paths`: the totals are recomputed (and raise as the
      calculation does), the uncalled states are looked up in the weight
      table (a state it lacks raises KeyError), and every party gets the
      path its count gives it. */
  function RemainingPaths(e: Engine, a: Assignment, split: set<State>, uncalled: set<State>): (r: Result<map<Party, PathAnalysis>, Error>)
    requires IsDict(a)
    ensures r.Ok? <==> ValidateInputs(e, a).Pass? && uncalled <= e.votes.Keys
    ensures ValidateInputs(e, a).Fail? ==> r == Err(ValidateInputs(e, a).error)
    ensures r.Ok? ==>
      forall p: Party :: p in r.value &&
        r.value[p] == PathFor(e.votes, SumOver(e.votes, PartyStates(a, p) - split), SumOver(e.votes, uncalled), uncalled)
  {
    var totals :- CalculateElectoralVotes(e, a, split);
    if !(uncalled <= e.votes.Keys) then
      var missing := Enumerate(uncalled - e.votes.Keys);
      var s :| s in uncalled && s !in e.votes;
      assert s in missing;
      Err(KeyError(StateKey(missing[0])))
    else
      Ok(Paths(e.votes, totals, uncalled))
  }

  /** A requested state the weight table lacks raises KeyError naming it. */
  lemma RemainingPathsMissingState(e: Engine, a: Assignment, split: set<State>, uncalled: set<State>)
    requires IsDict(a)
    requires ValidateInputs(e, a).Pass?
    requires !(uncalled <= e.votes.Keys)
    ensures var r := RemainingPaths(e, a, split, uncalled);
      r.Err? && r.error.KeyError? && r.error.key.StateKey? &&
      r.error.key.state in uncalled && r.error.key.state !in e.votes
  {
    var missing := Enumerate(uncalled - e.votes.Keys);
    var s :| s in uncalled && s !in e.votes;
    assert s in missing;
    assert missing[0] in missing;
  }

  /** The result of an analysis (models.py's record with the fields the
      two callers pass; the timestamp is left out). */
  datatype ElectionResult = ElectionResult(
    year: int,
    stateResults: Assignment,
    voteTotals: Totals<Party>,
    winner: Option<Party>,
    remainingPaths: map<Party, PathAnalysis>,
    notes: Option<string>)
  {
    predicate HasWinner() {
      winner.Some?
    }
  }

  /** The shared body of `check_winner` and `create_election_result`:
      totals, the winner loop, and the paths over the uncalled states. */
  function Analyse(e: Engine, a: Assignment, split: set<State>, year: int, notes: Option<string>): (r: Result<ElectionResult, Error>)
    requires IsDict(a)
    ensures r.Ok? <==> ValidateInputs(e, a).Pass?
    ensures r.Err? ==> r.error == ValidateInputs(e, a).error
    ensures r.Ok? ==> r.value.year == year && r.value.stateResults == a && r.value.notes == notes
  {
    var totals :- CalculateElectoralVotes(e, a, split);
    match RemainingPaths(e, a, split, UncalledStates(e, a))
    case Ok(paths) => Ok(ElectionResult(year, a, totals, FirstWinner(totals), paths, notes))
    case Err(err) => Err(err)
  }

  /** The parts of a successful analysis. */
  lemma AnalyseParts(e: Engine, a: Assignment, split: set<State>, year: int, notes: Option<string>)
    requires IsDict(a)
    requires Analyse(e, a, split, year, notes).Ok?
    ensures CalculateElectoralVotes(e, a, split).Ok?
    ensures RemainingPaths(e, a, split, UncalledStates(e, a)).Ok?
    ensures var res := Analyse(e, a, split, year, notes).value;
      res.voteTotals == CalculateElectoralVotes(e, a, split).value &&
      res.winner == FirstWinner(res.voteTotals) &&
      res.remainingPaths == RemainingPaths(e, a, split, UncalledStates(e, a)).value
  {
  }

  /** `check_winner`: the analysis stamped with the current year (a
      parameter here), without notes. */
  function CheckWinner(e: Engine, a: Assignment, split: set<State>, currentYear: int): (r: Result<ElectionResult, Error>)
    requires IsDict(a)
    ensures r.Ok? <==> ValidateInputs(e, a).Pass?
    ensures r.Ok? ==> r.value.notes == None && r.value.year == currentYear
  {
    Analyse(e, a, split, currentYear, None)
  }

  /** `create_election_result`: the analysis for a given year, with notes. */
  function CreateElectionResult(e: Engine, year: int, a: Assignment, notes: Option<string>, split: set<State>): (r: Result<ElectionResult, Error>)
    requires IsDict(a)
    ensures r.Ok? <==> ValidateInputs(e, a).Pass?
    ensures r.Ok? ==> r.value.notes == notes && r.value.year == year
  {
    Analyse(e, a, split, year, notes)
  }

  /** With non-negative weights the winner loop names a party exactly
      when the states assigned to it outside the split set weigh 270 or
      more, whatever order the totals come in. */
  lemma TotalsWinner(e: Engine, a: Assignment, split: set<State>, p: Party)
    requires forall s: State :: Get(e.votes, s) >= 0
    requires IsDict(a)
    requires CalculateElectoralVotes(e, a, split).Ok?
    ensures var t := CalculateElectoralVotes(e, a, split).value;
      FirstWinner(t) == Some(p) <==> SumOver(e.votes, PartyStates(a, p) - split) >= VOTES_TO_WIN
  {
    var t := CalculateElectoralVotes(e, a, split).value;
    TotalsBounded(e, a, split);
    NonNegativeFromLookups(t);
    WinnerUnique(t, p);
  }

  /** On a constructed engine the result names a winner exactly when some
      party holds 270 votes or more, and then it names that party. */
  lemma AnalyseWinner(e: Engine, a: Assignment, split: set<State>, year: int, notes: Option<string>, p: Party)
    requires Valid(e)
    requires IsDict(a)
    requires Analyse(e, a, split, year, notes).Ok?
    ensures var res := Analyse(e, a, split, year, notes).value;
      (res.winner == Some(p) <==> SumOver(e.votes, PartyStates(a, p) - split) >= VOTES_TO_WIN) &&
      (res.HasWinner() <==> exists q: Party :: SumOver(e.votes, PartyStates(a, q) - split) >= VOTES_TO_WIN)
  {
    NonNegativeWeights(e);
    AnalyseParts(e, a, split, year, notes);
    TotalsWinner(e, a, split, p);
    var res := Analyse(e, a, split, year, notes).value;
    if res.HasWinner() {
      TotalsWinner(e, a, split, res.winner.value);
    }
    if exists q: Party :: SumOver(e.votes, PartyStates(a, q) - split) >= VOTES_TO_WIN {
      var q: Party :| SumOver(e.votes, PartyStates(a, q) - split) >= VOTES_TO_WIN;
      TotalsWinner(e, a, split, q);
    }
  }

  /** With non-negative weights a path's `possible` flag agrees with the
      fewest states it needs, which is 0 exactly when the party already
      holds 270 votes. */
  lemma PathFacts(w: map<State, int>, current: int, uncalled: set<State>)
    requires uncalled <= w.Keys
    requires AtLeast(w, uncalled, 0)
    ensures var path := PathFor(w, current, SumOver(w, uncalled), uncalled);
      (path.possible <==> path.minimumStatesNeeded <= |uncalled|) &&
      (path.minimumStatesNeeded == 0 <==> current >= VOTES_TO_WIN)
  {
    MinimumAgreesWithPossible(w, VOTES_TO_WIN - current, uncalled);
  }

  /** On a constructed engine every party has a path, measured against the
      states nobody has called: its count is the weight of the states
      assigned to it, its `possible` flag says the uncalled weight covers
      what it still needs and agrees with the fewest states it needs, which
      is 0 exactly when it needs no more votes. */
  lemma AnalysePaths(e: Engine, a: Assignment, split: set<State>, year: int, notes: Option<string>, p: Party)
    requires Valid(e)
    requires IsDict(a)
    requires Analyse(e, a, split, year, notes).Ok?
    ensures var res := Analyse(e, a, split, year, notes).value;
      var u := UncalledStates(e, a);
      p in res.remainingPaths &&
      var path := res.remainingPaths[p];
      path.currentVotes == SumOver(e.votes, PartyStates(a, p) - split) &&
      path.neededVotes == VOTES_TO_WIN - path.currentVotes &&
      (path.possible <==> path.neededVotes <= SumOver(e.votes, u)) &&
      (path.possible <==> path.minimumStatesNeeded <= |u|) &&
      (path.minimumStatesNeeded == 0 <==> path.currentVotes >= VOTES_TO_WIN)
  {
    NonNegativeWeights(e);
    AnalyseParts(e, a, split, year, notes);
    var u := UncalledStates(e, a);
    PathFacts(e.votes, SumOver(e.votes, PartyStates(a, p) - split), u);
  }

  /** The analysis does not depend on the order of the items: two
      enumerations of the same dictionary give the same winner and the same
      paths. */
  lemma AnalyseOrderIndependent(e: Engine, a: Assignment, b: Assignment, split: set<State>, year: int, notes: Option<string>)
    requires Valid(e)
    requires IsDict(a) && IsDict(b)
    requires forall x :: x in a <==> x in b
    ensures Analyse(e, a, split, year, notes).Ok? <==> Analyse(e, b, split, year, notes).Ok?
    ensures Analyse(e, a, split, year, notes).Ok? ==>
      Analyse(e, a, split, year, notes).value.winner == Analyse(e, b, split, year, notes).value.winner &&
      Analyse(e, a, split, year, notes).value.remainingPaths == Analyse(e, b, split, year, notes).value.remainingPaths
  {
    SameItemsSameValidity(e, a, b);
    if Analyse(e, a, split, year, notes).Ok? {
      SameWinner(e, a, b, split, year, notes);
      SamePaths(e, a, b, split, year, notes);
    }
  }

  lemma SameWinner(e: Engine, a: Assignment, b: Assignment, split: set<State>, year: int, notes: Option<string>)
    requires Valid(e)
    requires IsDict(a) && IsDict(b)
    requires forall x :: x in a <==> x in b
    requires Analyse(e, a, split, year, notes).Ok? && Analyse(e, b, split, year, notes).Ok?
    ensures Analyse(e, a, split, year, notes).value.winner == Analyse(e, b, split, year, notes).value.winner
  {
    var wa := Analyse(e, a, split, year, notes).value.winner;
    var wb := Analyse(e, b, split, year, notes).value.winner;
    if wa.Some? {
      AnalyseWinner(e, a, split, year, notes, wa.value);
      AnalyseWinner(e, b, split, year, notes, wa.value);
      SameItemsSamePartyStates(a, b, wa.value);
    } else if wb.Some? {
      AnalyseWinner(e, a, split, year, notes, wb.value);
      AnalyseWinner(e, b, split, year, notes, wb.value);
      SameItemsSamePartyStates(a, b, wb.value);
    }
  }

  lemma RemainingPathsParts(e: Engine, a: Assignment, split: set<State>, uncalled: set<State>)
    requires IsDict(a)
    requires RemainingPaths(e, a, split, uncalled).Ok?
    ensures CalculateElectoralVotes(e, a, split).Ok? && uncalled <= e.votes.Keys
    ensures RemainingPaths(e, a, split, uncalled).value == Paths(e.votes, CalculateElectoralVotes(e, a, split).value, uncalled)
  {
  }

  /** The paths depend on the totals only through each party's count. */
  lemma PathsDependOnCounts(w: map<State, int>, t1: Totals<Party>, t2: Totals<Party>, uncalled: set<State>)
    requires uncalled <= w.Keys
    requires forall p :: TotalFor(t1, p) == TotalFor(t2, p)
    ensures Paths(w, t1, uncalled) == Paths(w, t2, uncalled)
  {
    var m1 := Paths(w, t1, uncalled);
    var m2 := Paths(w, t2, uncalled);
    assert forall p: Party :: p in m1 && p in m2 && m1[p] == m2[p];
    assert m1.Keys == m2.Keys;
  }

  lemma SameItemsSamePaths(e: Engine, a: Assignment, b: Assignment, split: set<State>, uncalled: set<State>)
    requires IsDict(a) && IsDict(b)
    requires forall x :: x in a <==> x in b
    requires RemainingPaths(e, a, split, uncalled).Ok? && RemainingPaths(e, b, split, uncalled).Ok?
    ensures RemainingPaths(e, a, split, uncalled).value == RemainingPaths(e, b, split, uncalled).value
  {
    RemainingPathsParts(e, a, split, uncalled);
    RemainingPathsParts(e, b, split, uncalled);
    TotalsOrderIndependent(e, a, b, split);
    PathsDependOnCounts(e.votes, CalculateElectoralVotes(e, a, split).value, CalculateElectoralVotes(e, b, split).value, uncalled);
  }

  lemma SamePaths(e: Engine, a: Assignment, b: Assignment, split: set<State>, year: int, notes: Option<string>)
    requires IsDict(a) && IsDict(b)
    requires forall x :: x in a <==> x in b
    requires Analyse(e, a, split, year, notes).Ok? && Analyse(e, b, split, year, notes).Ok?
    ensures Analyse(e, a, split, year, notes).value.remainingPaths == Analyse(e, b, split, year, notes).value.remainingPaths
  {
    AnalyseParts(e, a, split, year, notes);
    AnalyseParts(e, b, split, year, notes);
    SameItemsSameCalled(a, b);
    assert UncalledStates(e, a) == UncalledStates(e, b);
    SameItemsSamePaths(e, a, b, split, UncalledStates(e, a));
  }
}

=== FILE: engine.dfy ===
/** The calculator object: its configuration and the weight table it derives
    from the configuration when it is constructed. */
module Calculator {
  import opened Enums
  import opened Results
  import opened Errors
  import opened Weights
  import opened Config

  datatype Engine = Engine(config: Config, votes: map<State, int>)

  /** An engine as the constructor leaves it: a configuration that passed
      the check, and the weight table read off that configuration. */
  predicate Valid(e: Engine) {
    ConfigOk(e.config) && e.votes == VotesTable(e.config)
  }

  /** The constructor: it runs the consistency check first and raises
      InvalidVoteCountError when the check fails. */
  function NewEngine(c: Config): (r: Result<Engine, Error>)
    ensures r.Ok? <==> ValidateConfiguration(c)
    ensures r.Err? ==> r.error == InvalidVoteCountError(ConfigurationInvalid)
    ensures r.Ok? ==> Valid(r.value) && r.value.config == c
    ensures r.Ok? ==> forall s: State :: Get(r.value.votes, s) == c.stateData[s].electoralVotes
  {
    if !ValidateConfiguration(c) then Err(InvalidVoteCountError(ConfigurationInvalid))
    else Ok(Engine(c, VotesTable(c)))
  }

  /** A constructed engine knows every state, each worth at least 3 votes. */
  lemma ValidWeights(e: Engine)
    requires Valid(e)
    ensures forall s: State :: s in e.votes
    ensures forall s: State :: s in e.votes && e.votes[s] >= MIN_STATE_VOTES
    ensures AtLeast(e.votes, StateSet(), 0)
  {
  }

  /** A constructed engine weighs every state, never negatively. */
  lemma NonNegativeWeights(e: Engine)
    requires Valid(e)
    ensures forall s: State :: s in e.votes
    ensures AtLeast(e.votes, StateSet(), 0)
  {
    ValidWeights(e);
  }
}

=== FILE: enums.dfy ===
/** The closed identifier sets of the electoral college: the 51 voting
    jurisdictions (50 states and the District of Columbia), the contending
    parties and the geographic regions. */
module Enums {

  /** The states and the District of Columbia, in declaration order. */
  datatype State =
    | AL | AK | AZ | AR | CA | CO | CT | DE | DC | FL
    | GA | HI | ID | IL | IN | IA | KS | KY | LA | ME
    | MD | MA | MI | MN | MS | MO | MT | NE | NV | NH
    | NJ | NM | NY | NC | ND | OH | OK | OR | PA | RI
    | SC | SD | TN | TX | UT | VT | VA | WA | WV | WI
    | WY

  datatype Party = DEM | REP | IND | GRN | LIB

  datatype Region = Northeast | Midwest | South | West | District

  /** The declaration order of State, written in rows of ten. */
  const StatesRow0: seq<State> := [AL, AK, AZ, AR, CA, CO, CT, DE, DC, FL]
  const StatesRow1: seq<State> := [GA, HI, ID, IL, IN, IA, KS, KY, LA, ME]
  const StatesRow2: seq<State> := [MD, MA, MI, MN, MS, MO, MT, NE, NV, NH]
  const StatesRow3: seq<State> := [NJ, NM, NY, NC, ND, OH, OK, OR, PA, RI]
  const StatesRow4: seq<State> := [SC, SD, TN, TX, UT, VT, VA, WA, WV, WI]
  const StatesRow5: seq<State> := [WY]

  /** Every state exactly once, in declaration order. */
  const AllStates: seq<State> := StatesRow0 + StatesRow1 + StatesRow2 + StatesRow3 + StatesRow4 + StatesRow5

  /** Every party, in declaration order. */
  const AllParties: seq<Party> := [DEM, REP, IND, GRN, LIB]

  /** Every region, in declaration order. */
  const AllRegions: seq<Region> := [Northeast, Midwest, South, West, District]

  /** Position of a state in the declaration order. */
  function Index(s: State): nat {
    match s
    case AL => 0 case AK => 1 case AZ => 2 case AR => 3 case CA => 4
    case CO => 5 case CT => 6 case DE => 7 case DC => 8 case FL => 9
    case GA => 10 case HI => 11 case ID => 12 case IL => 13 case IN => 14
    case IA => 15 case KS => 16 case KY => 17 case LA => 18 case ME => 19
    case MD => 20 case MA => 21 case MI => 22 case MN => 23 case MS => 24
    case MO => 25 case MT => 26 case NE => 27 case NV => 28 case NH => 29
    case NJ => 30 case NM => 31 case NY => 32 case NC => 33 case ND => 34
    case OH => 35 case OK => 36 case OR => 37 case PA => 38 case RI => 39
    case SC => 40 case SD => 41 case TN => 42 case TX => 43 case UT => 44
    case VT => 45 case VA => 46 case WA => 47 case WV => 48 case WI => 49
    case WY => 50
  }

  /** No element occurs twice in a sequence. */
  predicate Distinct<T(==)>(xs: seq<T>) {
    forall i, j | 0 <= i < j < |xs| :: xs[i] != xs[j]
  }

  /** The set of elements of a sequence. */
  function Elements<T>(xs: seq<T>): set<T> {
    set x | x in xs
  }

  /** The set of all 51 states. */
  function StateSet(): (all: set<State>)
    ensures forall s: State :: s in all
    ensures |all| == 51
  {
    AllStatesComplete();
    AllStatesDistinct();
    DistinctCardinality(AllStates);
    Elements(AllStates)
  }

  /** AllParties lists every party. */
  lemma AllPartiesComplete()
    ensures forall p: Party :: p in AllParties
  {
    forall p: Party ensures p in AllParties {
      match p
      case DEM => assert AllParties[0] == p;
      case REP => assert AllParties[1] == p;
      case IND => assert AllParties[2] == p;
      case GRN => assert AllParties[3] == p;
      case LIB => assert AllParties[4] == p;
    }
  }

  /** AllRegions lists every region. */
  lemma AllRegionsComplete()
    ensures forall r: Region :: r in AllRegions
  {
    forall r: Region ensures r in AllRegions {
      match r
      case Northeast => assert AllRegions[0] == r;
      case Midwest => assert AllRegions[1] == r;
      case South => assert AllRegions[2] == r;
      case West => assert AllRegions[3] == r;
      case District => assert AllRegions[4] == r;
    }
  }

  /** AllStates lists every state, at its declaration index. */
  lemma AllStatesComplete()
    ensures |AllStates| == 51
    ensures forall s: State :: Index(s) < |AllStates| && AllStates[Index(s)] == s
    ensures forall s: State :: s in AllStates
  {
    forall s: State ensures Index(s) < |AllStates| && AllStates[Index(s)] == s && s in AllStates {
      match s
    case AL =>
    case AK =>
    case AZ =>
    case AR =>
    case CA =>
    case CO =>
    case CT =>
    case DE =>
    case DC =>
    case FL =>
    case GA =>
    case HI =>
    case ID =>
    case IL =>
    case IN =>
    case IA =>
    case KS =>
    case KY =>
    case LA =>
    case ME =>
    case MD =>
    case MA =>
    case MI =>
    case MN =>
    case MS =>
    case MO =>
    case MT =>
    case NE =>
    case NV =>
    case NH =>
    case NJ =>
    case NM =>
    case NY =>
    case NC =>
    case ND =>
    case OH =>
    case OK =>
    case OR =>
    case PA =>
    case RI =>
    case SC =>
    case SD =>
    case TN =>
    case TX =>
    case UT =>
    case VT =>
    case VA =>
    case WA =>
    case WV =>
    case WI =>
    case WY =>
    }
  }

  lemma StatesRow0Indexed()
    ensures forall j | 0 <= j < |StatesRow0| :: Index(StatesRow0[j]) == 0 + j
  {
    StatesRow0IndexedLow();
    StatesRow0IndexedHigh();
  }

  lemma StatesRow0IndexedLow()
    ensures forall j | 0 <= j < 5 :: Index(StatesRow0[j]) == 0 + j
  {
    forall j | 0 <= j < 5 ensures Index(StatesRow0[j]) == 0 + j {
      if j == 0 {} else if j == 1 {} else if j == 2 {} else if j == 3 {} else {}
    }
  }

  lemma StatesRow0IndexedHigh()
    ensures forall j | 5 <= j < 10 :: Index(StatesRow0[j]) == 0 + j
  {
    forall j | 5 <= j < 10 ensures Index(StatesRow0[j]) == 0 + j {
      if j == 5 {} else if j == 6 {} else if j == 7 {} else if j == 8 {} else {}
    }
  }

  lemma StatesRow1Indexed()
    ensures forall j | 0 <= j < |StatesRow1| :: Index(StatesRow1[j]) == 10 + j
  {
    StatesRow1IndexedLow();
    StatesRow1IndexedHigh();
  }

  lemma StatesRow1IndexedLow()
    ensures forall j | 0 <= j < 5 :: Index(StatesRow1[j]) == 10 + j
  {
    forall j | 0 <= j < 5 ensures Index(StatesRow1[j]) == 10 + j {
      if j == 0 {} else if j == 1 {} else if j == 2 {} else if j == 3 {} else {}
    }
  }

  lemma StatesRow1IndexedHigh()
    ensures forall j | 5 <= j < 10 :: Index(StatesRow1[j]) == 10 + j
  {
    forall j | 5 <= j < 10 ensures Index(StatesRow1[j]) == 10 + j {
      if j == 5 {} else if j == 6 {} else if j == 7 {} else if j == 8 {} else {}
    }
  }

  lemma StatesRow2Indexed()
    ensures forall j | 0 <= j < |StatesRow2| :: Index(StatesRow2[j]) == 20 + j
  {
    StatesRow2IndexedLow();
    StatesRow2IndexedHigh();
  }

  lemma StatesRow2IndexedLow()
    ensures forall j | 0 <= j < 5 :: Index(StatesRow2[j]) == 20 + j
  {
    forall j | 0 <= j < 5 ensures Index(StatesRow2[j]) == 20 + j {
      if j == 0 {} else if j == 1 {} else if j == 2 {} else if j == 3 {} else {}
    }
  }

  lemma StatesRow2IndexedHigh()
    ensures forall j | 5 <= j < 10 :: Index(StatesRow2[j]) == 20 + j
  {
    forall j | 5 <= j < 10 ensures Index(StatesRow2[j]) == 20 + j {
      if j == 5 {} else if j == 6 {} else if j == 7 {} else if j == 8 {} else {}
    }
  }

  lemma StatesRow3Indexed()
    ensures forall j | 0 <= j < |StatesRow3| :: Index(StatesRow3[j]) == 30 + j
  {
    StatesRow3IndexedLow();
    StatesRow3IndexedHigh();
  }

  lemma StatesRow3IndexedLow()
    ensures forall j | 0 <= j < 5 :: Index(StatesRow3[j]) == 30 + j
  {
    forall j | 0 <= j < 5 ensures Index(StatesRow3[j]) == 30 + j {
      if j == 0 {} else if j == 1 {} else if j == 2 {} else if j == 3 {} else {}
    }
  }

  lemma StatesRow3IndexedHigh()
    ensures forall j | 5 <= j < 10 :: Index(StatesRow3[j]) == 30 + j
  {
    forall j | 5 <= j < 10 ensures Index(StatesRow3[j]) == 30 + j {
      if j == 5 {} else if j == 6 {} else if j == 7 {} else if j == 8 {} else {}
    }
  }

  lemma StatesRow4Indexed()
    ensures forall j | 0 <= j < |StatesRow4| :: Index(StatesRow4[j]) == 40 + j
  {
    StatesRow4IndexedLow();
    StatesRow4IndexedHigh();
  }

  lemma StatesRow4IndexedLow()
    ensures forall j | 0 <= j < 5 :: Index(StatesRow4[j]) == 40 + j
  {
    forall j | 0 <= j < 5 ensures Index(StatesRow4[j]) == 40 + j {
      if j == 0 {} else if j == 1 {} else if j == 2 {} else if j == 3 {} else {}
    }
  }

  lemma StatesRow4IndexedHigh()
    ensures forall j | 5 <= j < 10 :: Index(StatesRow4[j]) == 40 + j
  {
    forall j | 5 <= j < 10 ensures Index(StatesRow4[j]) == 40 + j {
      if j == 5 {} else if j == 6 {} else if j == 7 {} else if j == 8 {} else {}
    }
  }

  lemma StatesRow5Indexed()
    ensures forall j | 0 <= j < |StatesRow5| :: Index(StatesRow5[j]) == 50 + j
  {
    forall j | 0 <= j < |StatesRow5| ensures Index(StatesRow5[j]) == 50 + j {
      
    }
  }

  /** AllStates lists no state twice. */
  lemma AllStatesDistinct()
    ensures Distinct(AllStates)
  {
    StatesRow0Indexed();
    StatesRow1Indexed();
    StatesRow2Indexed();
    StatesRow3Indexed();
    StatesRow4Indexed();
    StatesRow5Indexed();
    assert forall i | 0 <= i < |AllStates| :: Index(AllStates[i]) == i;
  }

  /** A duplicate-free sequence has as many distinct elements as it has positions. */
  lemma {:induction false} DistinctCardinality<T>(xs: seq<T>)
    requires Distinct(xs)
    ensures |Elements(xs)| == |xs|
  {
    if xs != [] {
      var last := xs[|xs| - 1];
      var init := xs[..|xs| - 1];
      DistinctCardinality(init);
      assert Elements(xs) == Elements(init) + {last};
      assert last !in init;
    }
  }
}

=== FILE: errors.dfy ===
/** The dynamic shapes of a caller's assignment and the errors the engine
    raises.  A Python assignment is a dict whose keys are meant to be
    states and whose values are meant to be a party or None; nothing stops
    a caller from passing anything else, and the validator exists to catch
    exactly that, so both shapes keep room for a foreign value. */
module Errors {
  import opened Enums

  /** A key of the caller's dict: a state, or some other object. */
  datatype Key = StateKey(state: State) | ForeignKey(repr: string)

  /** A value of the caller's dict: a party, None (not yet called), or some other object. */
  datatype Call = Called(party: Party) | Uncalled | ForeignValue(repr: string)

  /** What an InvalidVoteCountError reports. */
  datatype VoteCountProblem =
    | CalledExceedsTotal(called: int, maximum: int)  // the called weight is above the fixed total
    | ConfigurationInvalid                           // raised by the engine constructor

  datatype Error =
    | InvalidStateError(states: set<Key>)           // keys that are not valid states
    | InvalidPartyError(parties: set<Call>)         // values that are neither a party nor None
    | InvalidVoteCountError(problem: VoteCountProblem)
    | KeyError(key: Key)                            // a lookup of a state the table lacks
    | ValueError(key: Key)                          // a region tag that names no region
    | AttributeError(name: string)                  // a method the configuration class lacks
}

=== FILE: reachability.dfy ===
/** The fewest uncalled states a party still needs: take the heaviest
    states first until their weight reaches the votes still needed. */
module Reachability {
  import opened Enums
  import opened Weights

  /** States in order of non-increasing weight. */
  predicate SortedDesc(w: map<State, int>, xs: seq<State>) {
    forall i, j | 0 <= i < j < |xs| :: Get(w, xs[i]) >= Get(w, xs[j])
  }

  /** Inserts x before the first state that weighs no more than it. */
  function Insert(w: map<State, int>, x: State, xs: seq<State>): seq<State> {
    if xs == [] || Get(w, x) >= Get(w, xs[0]) then [x] + xs
    else [xs[0]] + Insert(w, x, xs[1..])
  }

  /** A list with a head is sorted when its tail is and nothing in the
      tail outweighs the head. */
  lemma SortedCons(w: map<State, int>, h: State, tl: seq<State>)
    requires SortedDesc(w, tl)
    requires forall y | y in tl :: Get(w, y) <= Get(w, h)
    ensures SortedDesc(w, [h] + tl)
  {
    var r := [h] + tl;
    forall i, j | 0 <= i < j < |r| ensures Get(w, r[i]) >= Get(w, r[j]) {
      assert r[j] == tl[j - 1];
      if i > 0 { assert r[i] == tl[i - 1]; }
    }
  }

  lemma {:induction false} InsertElements(w: map<State, int>, x: State, xs: seq<State>)
    ensures forall y :: y in Insert(w, x, xs) <==> y == x || y in xs
  {
    if xs != [] && Get(w, x) < Get(w, xs[0]) {
      InsertElements(w, x, xs[1..]);
      assert xs == [xs[0]] + xs[1..];
    }
  }

  /** Insertion adds x to the states and keeps a sorted list sorted. */
  lemma InsertFacts(w: map<State, int>, x: State, xs: seq<State>)
    ensures multiset(Insert(w, x, xs)) == multiset(xs) + multiset{x}
    ensures SortedDesc(w, xs) ==> SortedDesc(w, Insert(w, x, xs))
  {
    InsertPermutes(w, x, xs);
    if SortedDesc(w, xs) {
      InsertSorted(w, x, xs);
    }
  }

  /** Insertion adds exactly one copy of x. */
  lemma {:induction false} InsertPermutes(w: map<State, int>, x: State, xs: seq<State>)
    ensures multiset(Insert(w, x, xs)) == multiset(xs) + multiset{x}
  {
    if xs != [] && Get(w, x) < Get(w, xs[0]) {
      var tl := xs[1..];
      InsertPermutes(w, x, tl);
      assert xs == [xs[0]] + tl;
    }
  }

  /** Insertion keeps a sorted list sorted. */
  lemma {:induction false} InsertSorted(w: map<State, int>, x: State, xs: seq<State>)
    requires SortedDesc(w, xs)
    ensures SortedDesc(w, Insert(w, x, xs))
  {
    if xs == [] || Get(w, x) >= Get(w, xs[0]) {
      if xs != [] {
        forall y | y in xs ensures Get(w, y) <= Get(w, x) {
          HeadIsHeaviest(w, xs, y);
        }
      }
      SortedCons(w, x, xs);
    } else {
      var tl := xs[1..];
      assert SortedDesc(w, tl) by {
        forall i, j | 0 <= i < j < |tl| ensures Get(w, tl[i]) >= Get(w, tl[j]) {
          assert tl[i] == xs[i + 1] && tl[j] == xs[j + 1];
        }
      }
      InsertSorted(w, x, tl);
      var rest := Insert(w, x, tl);
      InsertElements(w, x, tl);
      forall y | y in rest ensures Get(w, y) <= Get(w, xs[0]) {
        if y != x { HeadIsHeaviest(w, xs, y); }
      }
      SortedCons(w, xs[0], rest);
    }
  }

  /** The head of a list sorted heaviest first weighs at least as much as
      any of its states. */
  lemma HeadIsHeaviest(w: map<State, int>, ys: seq<State>, x: State)
    requires SortedDesc(w, ys)
    requires x in ys
    ensures Get(w, x) <= Get(w, ys[0])
  {
    var i :| 0 <= i < |ys| && ys[i] == x;
  }

  /** The states of xs, heaviest first (`sorted(..., reverse=True)`). */
  function SortDesc(w: map<State, int>, xs: seq<State>): (r: seq<State>)
    ensures multiset(r) == multiset(xs)
    ensures SortedDesc(w, r)
  {
    if xs == [] then []
    else
      var rest := SortDesc(w, xs[1..]);
      InsertFacts(w, xs[0], rest);
      assert xs == [xs[0]] + xs[1..];
      Insert(w, xs[0], rest)
  }

  /** A reordering of a duplicate-free sequence is duplicate-free and has
      the same elements. */
  lemma PermutationKeepsDistinct(xs: seq<State>, ys: seq<State>)
    requires multiset(xs) == multiset(ys)
    requires Distinct(xs)
    ensures Distinct(ys) && Elements(ys) == Elements(xs)
  {
    forall i, j | 0 <= i < j < |ys| ensures ys[i] != ys[j] {
      if ys[i] == ys[j] {
        var y := ys[i];
        assert multiset(ys)[y] >= 2 by {
          assert ys == ys[..i] + [y] + ys[i + 1..j] + [y] + ys[j + 1..];
        }
        DistinctCountsOnce(xs, y);
        assert false;
      }
    }
    forall y ensures y in ys <==> y in xs {
      assert y in multiset(ys) <==> y in multiset(xs);
    }
  }

  lemma {:induction false} DistinctCountsOnce(xs: seq<State>, y: State)
    requires Distinct(xs)
    ensures multiset(xs)[y] <= 1
  {
    if xs != [] {
      assert xs == [xs[0]] + xs[1..];
      assert Distinct(xs[1..]);
      DistinctCountsOnce(xs[1..], y);
      if y == xs[0] {
        assert y !in xs[1..];
      }
    }
  }

  /** The available states, heaviest first. */
  function Ranked(w: map<State, int>, avail: set<State>): (r: seq<State>)
    ensures SortedDesc(w, r) && Distinct(r) && Elements(r) == avail && |r| == |avail|
  {
    var xs := Enumerate(avail);
    var r := SortDesc(w, xs);
    PermutationKeepsDistinct(xs, r);
    DistinctCardinality(r);
    DistinctCardinality(xs);
    r
  }

  /** The loop: k states taken so far, weighing total; it takes the next
      state and stops as soon as the weight reaches needed, or runs out of
      states and reports one more than there are. */
  function ScanFrom(w: map<State, int>, ys: seq<State>, needed: int, k: nat, total: int): (r: int)
    requires k <= |ys|
    ensures k <= r <= |ys| + 1
    ensures r == k ==> total >= needed
    decreases |ys| - k
  {
    if k == |ys| then (if total >= needed then k else |ys| + 1)
    else
      var total' := total + Get(w, ys[k]);
      if total' >= needed then k + 1 else ScanFrom(w, ys, needed, k + 1, total')
  }

  /** The loop stops at the shortest prefix whose weight reaches needed,
      and reports |ys| + 1 when no prefix does. */
  lemma {:induction false} ScanFacts(w: map<State, int>, ys: seq<State>, needed: int, k: nat, total: int)
    requires k <= |ys|
    requires total == SumW(w, ys[..k])
    requires forall j | 0 <= j <= k :: SumW(w, ys[..j]) < needed
    ensures var r := ScanFrom(w, ys, needed, k, total);
      k < r <= |ys| + 1 &&
      (r <= |ys| ==> SumW(w, ys[..r]) >= needed) &&
      (forall j | 0 <= j < r && j <= |ys| :: SumW(w, ys[..j]) < needed)
    decreases |ys| - k
  {
    if k < |ys| {
      SumWPrefixStep(w, ys, k);
      var total' := total + Get(w, ys[k]);
      if total' < needed {
        ScanFacts(w, ys, needed, k + 1, total');
      }
    }
  }

  /** `_calculate_minimum_states_needed`: 0 when nothing more is needed;
      otherwise the number of heaviest available states whose weight first
      reaches needed, or one more than the number of available states when
      even all of them fall short. */
  function MinimumStatesNeeded(w: map<State, int>, needed: int, avail: set<State>): (r: int)
    requires avail <= w.Keys
    ensures r == 0 <==> needed <= 0
    ensures 0 <= r <= |avail| + 1
  {
    if needed <= 0 then 0
    else
      var ys := Ranked(w, avail);
      assert ys[..0] == [];
      ScanFacts(w, ys, needed, 0, 0);
      ScanFrom(w, ys, needed, 0, 0)
  }

  /** The k heaviest available states. */
  function Heaviest(w: map<State, int>, avail: set<State>, k: nat): (h: set<State>)
    requires k <= |avail|
    ensures h <= avail && |h| == k
  {
    var ys := Ranked(w, avail);
    var h := Elements(ys[..k]);
    assert Distinct(ys[..k]);
    DistinctCardinality(ys[..k]);
    h
  }

  /** The weight of a nonempty prefix: its first state and a prefix of the tail. */
  lemma PrefixSumCons(w: map<State, int>, ys: seq<State>, m: nat)
    requires 1 <= m <= |ys|
    ensures SumW(w, ys[..m]) == Get(w, ys[0]) + SumW(w, ys[1..][..m - 1])
  {
    assert ys[..m][1..] == ys[1..][..m - 1];
  }

  /** The tail of a sorted duplicate-free list is sorted and duplicate-free,
      and holds every state but the head. */
  lemma TailFacts(w: map<State, int>, ys: seq<State>)
    requires ys != [] && SortedDesc(w, ys) && Distinct(ys)
    ensures SortedDesc(w, ys[1..]) && Distinct(ys[1..])
    ensures forall y | y in ys && y != ys[0] :: y in ys[1..]
  {
    var tl := ys[1..];
    forall i, j | 0 <= i < j < |tl| ensures Get(w, tl[i]) >= Get(w, tl[j]) && tl[i] != tl[j] {
      assert tl[i] == ys[i + 1] && tl[j] == ys[j + 1];
    }
    forall y | y in ys && y != ys[0] ensures y in tl {
      var i :| 0 <= i < |ys| && ys[i] == y;
      assert tl[i - 1] == y;
    }
  }

  /** One step of the exchange argument: dropping x, the head itself when
      it is chosen and otherwise a state no heavier than the head. */
  lemma ExchangeStep(w: map<State, int>, ys: seq<State>, sub: set<State>, x: State)
    requires SortedDesc(w, ys) && ys != []
    requires x in sub && x in ys
    requires |sub - {x}| <= |ys[1..]|
    requires SumOver(w, sub - {x}) <= SumW(w, ys[1..][..|sub - {x}|])
    ensures |sub| <= |ys|
    ensures SumOver(w, sub) <= SumW(w, ys[..|sub|])
  {
    assert |sub| == |sub - {x}| + 1;
    SumOverRemove(w, sub, x);
    HeadIsHeaviest(w, ys, x);
    PrefixSumCons(w, ys, |sub|);
  }

  /** Removing the head, or any state when the head is not chosen, leaves
      states of the tail. */
  lemma RestInTail(w: map<State, int>, ys: seq<State>, sub: set<State>, x: State)
    requires ys != [] && SortedDesc(w, ys) && Distinct(ys)
    requires sub <= Elements(ys)
    requires x in sub && (ys[0] in sub ==> x == ys[0])
    ensures sub - {x} <= Elements(ys[1..])
  {
    TailFacts(w, ys);
  }

  /** Exchange argument: no m states of a list sorted heaviest first weigh
      more than its first m. */
  lemma {:induction false} PrefixIsHeaviest(w: map<State, int>, ys: seq<State>, sub: set<State>)
    requires SortedDesc(w, ys) && Distinct(ys)
    requires sub <= Elements(ys)
    ensures |sub| <= |ys|
    ensures SumOver(w, sub) <= SumW(w, ys[..|sub|])
    decreases |ys|
  {
    if sub == {} {
      SumOverEmpty(w);
      assert ys[..0] == [];
    } else {
      var x0 :| x0 in sub;
      var x := if ys[0] in sub then ys[0] else x0;
      RestInTail(w, ys, sub, x);
      TailFacts(w, ys);
      PrefixIsHeaviest(w, ys[1..], sub - {x});
      ExchangeStep(w, ys, sub, x);
    }
  }

  /** Past a count the scan reaches, no smaller set of available states
      reaches needed. */
  lemma NoSmallerSet(w: map<State, int>, ys: seq<State>, needed: int, avail: set<State>, r: int)
    requires SortedDesc(w, ys) && Distinct(ys) && Elements(ys) == avail
    requires forall j | 0 <= j < r && j <= |ys| :: SumW(w, ys[..j]) < needed
    ensures forall sub: set<State> | sub <= avail && |sub| < r :: SumOver(w, sub) < needed
  {
    forall sub: set<State> | sub <= avail && |sub| < r ensures SumOver(w, sub) < needed {
      PrefixIsHeaviest(w, ys, sub);
    }
  }

  lemma ReachedByHeaviest(w: map<State, int>, avail: set<State>, ys: seq<State>, needed: int, r: int)
    requires ys == Ranked(w, avail)
    requires 0 <= r <= |avail|
    requires SumW(w, ys[..r]) >= needed
    ensures SumOver(w, Heaviest(w, avail, r)) >= needed
  {
    assert Distinct(ys[..r]);
    SumOverSeq(w, ys[..r]);
  }

  /** The scan on the ranked states, for a positive need. */
  lemma PositiveNeed(w: map<State, int>, needed: int, avail: set<State>)
    requires avail <= w.Keys
    requires needed > 0
    ensures var r := MinimumStatesNeeded(w, needed, avail);
      (r <= |avail| ==> SumOver(w, Heaviest(w, avail, r)) >= needed) &&
      (forall sub: set<State> | sub <= avail && |sub| < r :: SumOver(w, sub) < needed)
  {
    var r := MinimumStatesNeeded(w, needed, avail);
    var ys := Ranked(w, avail);
    assert ys[..0] == [];
    ScanFacts(w, ys, needed, 0, 0);
    NoSmallerSet(w, ys, needed, avail, r);
    if r <= |avail| {
      ReachedByHeaviest(w, avail, ys, needed, r);
    }
  }

  lemma SubsetCardinality(a: set<State>, b: set<State>)
    requires a <= b
    ensures |a| <= |b|
  {
    assert b == a + (b - a);
  }

  /** The count is least: when it is at most the number of available
      states, its heaviest states reach needed, and no smaller set of
      available states does; when it is one more than that number, no set
      of available states reaches needed at all. */
  lemma MinimumStatesNeededOptimal(w: map<State, int>, needed: int, avail: set<State>)
    requires avail <= w.Keys
    ensures var r := MinimumStatesNeeded(w, needed, avail);
      (r <= |avail| ==> SumOver(w, Heaviest(w, avail, r)) >= needed) &&
      (forall sub: set<State> | sub <= avail && |sub| < r :: SumOver(w, sub) < needed) &&
      (r == |avail| + 1 <==> forall sub: set<State> | sub <= avail :: SumOver(w, sub) < needed)
  {
    var r := MinimumStatesNeeded(w, needed, avail);
    if needed <= 0 {
      assert Heaviest(w, avail, 0) == {};
      SumOverEmpty(w);
    } else {
      PositiveNeed(w, needed, avail);
      if r <= |avail| {
        var h := Heaviest(w, avail, r);
        assert h <= avail && SumOver(w, h) >= needed;
      } else {
        forall sub: set<State> | sub <= avail ensures SumOver(w, sub) < needed {
          SubsetCardinality(sub, avail);
        }
      }
    }
  }

  /** With non-negative weights the count is at most the number of
      available states exactly when their total weight covers needed (the
      `possible` flag of a path). */
  lemma MinimumAgreesWithPossible(w: map<State, int>, needed: int, avail: set<State>)
    requires avail <= w.Keys
    requires AtLeast(w, avail, 0)
    ensures MinimumStatesNeeded(w, needed, avail) <= |avail| <==> needed <= SumOver(w, avail)
  {
    var r := MinimumStatesNeeded(w, needed, avail);
    MinimumStatesNeededOptimal(w, needed, avail);
    SumOverMonotone(w, {}, avail);
    SumOverEmpty(w);
    if r <= |avail| && needed > 0 {
      SumOverMonotone(w, Heaviest(w, avail, r), avail);
    }
  }
}

=== FILE: regional.dfy ===
/** Vote totals broken down by region: `get_regional_results`. */
module Regional {
  import opened Enums
  import opened Results
  import opened Errors
  import opened Weights
  import opened Config
  import opened Calculator
  import opened Validation
  import opened Totals
  import opened Aggregation

  /** Per region, the count of each value the dictionary maps states to. */
  type RegionTotals = map<Region, Totals<Call>>

  /** Every region present. */
  predicate Complete(m: RegionTotals) {
    forall r: Region :: r in m
  }

  /** One empty dictionary per region. */
  function EmptyRegions(): (m: RegionTotals)
    ensures Complete(m)
    ensures forall r: Region :: m[r] == []
    ensures forall r: Region, v :: TotalFor(m[r], v) == 0
  {
    AllRegionsComplete();
    map r | r in AllRegions :: []
  }

  /** A key whose region can be looked up: a state with a row in the
      configuration table carrying a region tag. */
  predicate Locatable(e: Engine, k: Key) {
    k.StateKey? && k.state in e.config.stateData && e.config.stateData[k.state].region.Some?
  }

  /** The error the lookup of an unlocatable key raises: KeyError for a key
      without a row, ValueError for a row without a region tag. */
  function LocateError(e: Engine, k: Key): Error {
    if k.StateKey? && k.state in e.config.stateData then ValueError(k) else KeyError(k)
  }

  /** Every called item can be located. */
  predicate AllLocatable(e: Engine, a: Assignment) {
    forall i | 0 <= i < |a| :: NotNone(a[i].1) ==> Locatable(e, a[i].0)
  }

  /** The loop, from the partial result acc: each called item adds its
      state's weight to its value's count in its state's region; the first
      item whose region cannot be found raises. */
  function RegionalFrom(e: Engine, acc: RegionTotals, a: Assignment): (r: Result<RegionTotals, Error>)
    requires Complete(acc)
    ensures r.Ok? <==> AllLocatable(e, a)
    ensures r.Ok? ==> Complete(r.value)
    decreases |a|
  {
    if a == [] then Ok(acc)
    else
      var k := a[0].0;
      var v := a[0].1;
      assert forall i | 1 <= i < |a| :: a[1..][i - 1] == a[i];
      if !NotNone(v) then RegionalFrom(e, acc, a[1..])
      else match k
        case ForeignKey(_) => Err(KeyError(k))
        case StateKey(s) =>
          match GetRegion(e.config, s)
          case Err(err) => Err(err)
          case Ok(None) => Err(ValueError(k))
          case Ok(Some(region)) =>
            RegionalFrom(e, acc[region := Bump(acc[region], v, Get(e.votes, s))], a[1..])
  }

  /** `get_regional_results`: the loop from one empty dictionary per region. */
  function GetRegionalResults(e: Engine, a: Assignment): (r: Result<RegionTotals, Error>)
    ensures r.Ok? <==> AllLocatable(e, a)
    ensures r.Ok? ==> Complete(r.value)
  {
    RegionalFrom(e, EmptyRegions(), a)
  }

  /** A failure names the first called item that cannot be located. */
  lemma {:induction false} RegionalFirstError(e: Engine, acc: RegionTotals, a: Assignment)
    requires Complete(acc)
    requires !AllLocatable(e, a)
    ensures exists i | 0 <= i < |a| ::
      NotNone(a[i].1) && !Locatable(e, a[i].0) &&
      (forall j | 0 <= j < i :: NotNone(a[j].1) ==> Locatable(e, a[j].0)) &&
      RegionalFrom(e, acc, a).error == LocateError(e, a[i].0)
    decreases |a|
  {
    var k := a[0].0;
    var v := a[0].1;
    if NotNone(v) && !Locatable(e, k) {
      assert NotNone(a[0].1) && !Locatable(e, a[0].0);
    } else {
      assert !AllLocatable(e, a[1..]) by {
        var i :| 0 <= i < |a| && NotNone(a[i].1) && !Locatable(e, a[i].0);
        assert a[1..][i - 1] == a[i];
      }
      var acc' := if NotNone(v) then
        var region := e.config.stateData[k.state].region.value;
        acc[region := Bump(acc[region], v, Get(e.votes, k.state))]
        else acc;
      RegionalFirstError(e, acc', a[1..]);
      var i :| 0 <= i < |a[1..]| &&
        NotNone(a[1..][i].1) && !Locatable(e, a[1..][i].0) &&
        (forall j | 0 <= j < i :: NotNone(a[1..][j].1) ==> Locatable(e, a[1..][j].0)) &&
        RegionalFrom(e, acc', a[1..]).error == LocateError(e, a[1..][i].0);
      assert a[i + 1] == a[1..][i];
      forall j | 0 <= j < i + 1 ensures NotNone(a[j].1) ==> Locatable(e, a[j].0) {
        if j > 0 { assert a[j] == a[1..][j - 1]; }
      }
    }
  }

  /** The states a dictionary maps to v whose region tag is region. */
  function RegionStates(e: Engine, a: Assignment, region: Region, v: Call): (ss: set<State>)
    ensures forall s :: s in ss <==>
      (exists i | 0 <= i < |a| :: a[i] == (StateKey(s), v)) &&
      s in e.config.stateData && e.config.stateData[s].region == Some(region)
  {
    set i | 0 <= i < |a| && a[i].0.StateKey? && a[i].1 == v &&
      a[i].0.state in e.config.stateData && e.config.stateData[a[i].0.state].region == Some(region) :: a[i].0.state
  }

  /** The next partial result after one called, locatable item. */
  function Advance(e: Engine, acc: RegionTotals, x: Entry): (r: RegionTotals)
    requires Complete(acc)
    requires Locatable(e, x.0)
    ensures Complete(r)
    ensures forall region | region in acc && Some(region) != e.config.stateData[x.0.state].region ::
      r[region] == acc[region]
  {
    var region := e.config.stateData[x.0.state].region.value;
    acc[region := Bump(acc[region], x.1, Get(e.votes, x.0.state))]
  }

  /** The loop's first step on a called, locatable item. */
  lemma RegionalFromCons(e: Engine, acc: RegionTotals, a: Assignment)
    requires Complete(acc)
    requires a != [] && NotNone(a[0].1) && Locatable(e, a[0].0)
    ensures Complete(Advance(e, acc, a[0]))
    ensures RegionalFrom(e, acc, a) == RegionalFrom(e, Advance(e, acc, a[0]), a[1..])
  {
  }

  /** The item maps a state of region to v. */
  predicate InRegion(e: Engine, x: Entry, region: Region, v: Call) {
    x.0.StateKey? && x.1 == v && x.0.state in e.config.stateData &&
    e.config.stateData[x.0.state].region == Some(region)
  }

  /** The weight one item adds to the count of v in region. */
  function RegionContribution(e: Engine, x: Entry, region: Region, v: Call): int {
    if InRegion(e, x, region, v) then Get(e.votes, x.0.state) else 0
  }

  lemma AdvanceTotalFor(e: Engine, acc: RegionTotals, x: Entry, region: Region, v: Call)
    requires Complete(acc)
    requires Locatable(e, x.0)
    ensures TotalFor(Advance(e, acc, x)[region], v) == TotalFor(acc[region], v) + RegionContribution(e, x, region, v)
  {
    var r := e.config.stateData[x.0.state].region.value;
    if r == region {
      BumpTotalFor(acc[r], x.1, Get(e.votes, x.0.state), v);
    }
  }

  lemma RegionStatesSplit(e: Engine, a: Assignment, region: Region, v: Call)
    requires a != []
    ensures RegionStates(e, a, region, v) ==
      (if InRegion(e, a[0], region, v) then {a[0].0.state} else {}) + RegionStates(e, a[1..], region, v)
  {
    var rest := RegionStates(e, a[1..], region, v);
    var all := RegionStates(e, a, region, v);
    forall s | s in all && !(a[0] == (StateKey(s), v)) ensures s in rest {
      var i :| 0 <= i < |a| && a[i] == (StateKey(s), v);
      assert a[1..][i - 1] == a[i];
    }
    forall s | s in rest ensures s in all {
      var i :| 0 <= i < |a[1..]| && a[1..][i] == (StateKey(s), v);
      assert a[i + 1] == a[1..][i];
    }
  }

  /** A region's states for a called value are among the called states. */
  lemma RegionStatesCalled(e: Engine, a: Assignment, region: Region, v: Call)
    requires NotNone(v)
    ensures RegionStates(e, a, region, v) <= CalledStates(a)
  {
  }

  lemma RegionStatesCons(e: Engine, a: Assignment, region: Region, v: Call)
    requires IsDict(a) && a != [] && NotNone(v)
    ensures SumOver(e.votes, RegionStates(e, a, region, v)) ==
      SumOver(e.votes, RegionStates(e, a[1..], region, v)) + RegionContribution(e, a[0], region, v)
  {
    var rest := RegionStates(e, a[1..], region, v);
    var all := RegionStates(e, a, region, v);
    RegionStatesSplit(e, a, region, v);
    if InRegion(e, a[0], region, v) {
      HeadNotInTail(a);
      RegionStatesCalled(e, a[1..], region, v);
      HeadAdds(e.votes, all, rest, a[0].0.state);
    } else {
      assert all == rest;
    }
  }

  /** Adding a fresh head state adds its weight. */
  lemma HeadAdds(w: map<State, int>, all: set<State>, rest: set<State>, s: State)
    requires all == {s} + rest && s !in rest
    ensures SumOver(w, all) == SumOver(w, rest) + Get(w, s)
  {
    assert all == rest + {s};
    SumOverAdd(w, rest, s);
  }

  /** Each region's count of a called value is the weight of the states of
      that region the dictionary maps to it. */
  lemma {:induction false} RegionalFromContents(e: Engine, acc: RegionTotals, a: Assignment, region: Region, v: Call)
    requires Complete(acc)
    requires IsDict(a) && NotNone(v) && AllLocatable(e, a)
    ensures TotalFor(RegionalFrom(e, acc, a).value[region], v) ==
      TotalFor(acc[region], v) + SumOver(e.votes, RegionStates(e, a, region, v))
    decreases |a|
  {
    if a == [] {
      assert RegionStates(e, a, region, v) == {};
      SumOverEmpty(e.votes);
    } else {
      TailIsDict(a);
      assert AllLocatable(e, a[1..]) by {
        forall i | 0 <= i < |a[1..]| ensures NotNone(a[1..][i].1) ==> Locatable(e, a[1..][i].0) {
          assert a[1..][i] == a[i + 1];
        }
      }
      RegionStatesCons(e, a, region, v);
      if NotNone(a[0].1) {
        assert Locatable(e, a[0].0);
        RegionalFromCons(e, acc, a);
        RegionalFromContents(e, Advance(e, acc, a[0]), a[1..], region, v);
        AdvanceTotalFor(e, acc, a[0], region, v);
      } else {
        assert RegionContribution(e, a[0], region, v) == 0;
        RegionalFromContents(e, acc, a[1..], region, v);
      }
    }
  }

  /** The values the dictionary gives to called states tagged with region. */
  function RegionValues(e: Engine, a: Assignment, region: Region): (vs: set<Call>)
    ensures forall v :: v in vs <==> NotNone(v) && exists i | 0 <= i < |a| :: InRegion(e, a[i], region, v)
  {
    set i | 0 <= i < |a| && NotNone(a[i].1) && InRegion(e, a[i], region, a[i].1) :: a[i].1
  }

  lemma RegionValuesCons(e: Engine, a: Assignment, region: Region)
    requires a != []
    ensures RegionValues(e, a, region) ==
      (if NotNone(a[0].1) && InRegion(e, a[0], region, a[0].1) then {a[0].1} else {}) +
      RegionValues(e, a[1..], region)
  {
    assert forall i | 1 <= i < |a| :: a[1..][i - 1] == a[i];
  }

  /** One step adds the item's value to the keys of its own region only,
      and keeps every region free of repeated keys. */
  lemma AdvanceKeys(e: Engine, acc: RegionTotals, x: Entry, region: Region)
    requires Complete(acc)
    requires Locatable(e, x.0)
    ensures Keys(Advance(e, acc, x)[region]) ==
      Keys(acc[region]) + (if InRegion(e, x, region, x.1) then {x.1} else {})
    ensures Keyed(acc[region]) ==> Keyed(Advance(e, acc, x)[region])
  {
    var r := e.config.stateData[x.0.state].region.value;
    if r == region {
      BumpKeys(acc[r], x.1, Get(e.votes, x.0.state));
    }
  }

  /** The keys of each region's dictionary grow by exactly the values
      given to called states of that region, and no key is repeated. */
  lemma {:induction false} RegionalFromKeys(e: Engine, acc: RegionTotals, a: Assignment, region: Region)
    requires Complete(acc)
    requires AllLocatable(e, a)
    ensures Keys(RegionalFrom(e, acc, a).value[region]) == Keys(acc[region]) + RegionValues(e, a, region)
    ensures (forall r: Region :: Keyed(acc[r])) ==> Keyed(RegionalFrom(e, acc, a).value[region])
    decreases |a|
  {
    if a == [] {
      assert RegionValues(e, a, region) == {};
    } else {
      assert AllLocatable(e, a[1..]) by {
        forall i | 0 <= i < |a[1..]| ensures NotNone(a[1..][i].1) ==> Locatable(e, a[1..][i].0) {
          assert a[1..][i] == a[i + 1];
        }
      }
      RegionValuesCons(e, a, region);
      if NotNone(a[0].1) {
        assert Locatable(e, a[0].0);
        var next := Advance(e, acc, a[0]);
        RegionalFromCons(e, acc, a);
        AdvanceKeys(e, acc, a[0], region);
        forall r: Region ensures Keyed(acc[r]) ==> Keyed(next[r]) {
          AdvanceKeys(e, acc, a[0], r);
        }
        RegionalFromKeys(e, next, a[1..], region);
      } else {
        RegionalFromKeys(e, acc, a[1..], region);
      }
    }
  }

  /** On a successful breakdown, a region's dictionary has no repeated key,
      and a value is a key of it exactly when the dictionary gives that
      value to a called state of the region: a region with no such state
      stays empty. */
  lemma RegionalKeys(e: Engine, a: Assignment, region: Region, v: Call)
    requires GetRegionalResults(e, a).Ok?
    ensures Keyed(GetRegionalResults(e, a).value[region])
    ensures v in Keys(GetRegionalResults(e, a).value[region]) <==>
      NotNone(v) && exists i | 0 <= i < |a| :: InRegion(e, a[i], region, v)
  {
    var m := EmptyRegions();
    assert Keys(m[region]) == {};
    RegionalFromKeys(e, m, a, region);
  }

  /** The count of v summed over the five regions. */
  function RegionSum(m: RegionTotals, v: Call): int
    requires Complete(m)
  {
    TotalFor(m[Northeast], v) + TotalFor(m[Midwest], v) + TotalFor(m[South], v)
      + TotalFor(m[West], v) + TotalFor(m[District], v)
  }

  lemma AdvanceRegionSum(e: Engine, acc: RegionTotals, x: Entry, v: Call)
    requires Complete(acc)
    requires Locatable(e, x.0)
    ensures Complete(Advance(e, acc, x))
    ensures RegionSum(Advance(e, acc, x), v) == RegionSum(acc, v) + (if x.1 == v then Get(e.votes, x.0.state) else 0)
  {
    var r := e.config.stateData[x.0.state].region.value;
    BumpTotalFor(acc[r], x.1, Get(e.votes, x.0.state), v);
    match r
    case Northeast => {}
    case Midwest => {}
    case South => {}
    case West => {}
    case District => {}
  }

  /** Summed over the regions, the count of a called value is the weight of
      all states the dictionary maps to it. */
  lemma {:induction false} RegionalFromSum(e: Engine, acc: RegionTotals, a: Assignment, p: Party)
    requires Complete(acc)
    requires IsDict(a) && AllLocatable(e, a)
    ensures RegionSum(RegionalFrom(e, acc, a).value, Called(p)) == RegionSum(acc, Called(p)) + SumOver(e.votes, PartyStates(a, p) - {})
    decreases |a|
  {
    if a == [] {
      assert PartyStates(a, p) - {} == {};
      SumOverEmpty(e.votes);
    } else {
      TailIsDict(a);
      assert AllLocatable(e, a[1..]) by {
        forall i | 0 <= i < |a[1..]| ensures NotNone(a[1..][i].1) ==> Locatable(e, a[1..][i].0) {
          assert a[1..][i] == a[i + 1];
        }
      }
      UnsplitPartyCons(e.votes, {}, a, p);
      if NotNone(a[0].1) {
        assert Locatable(e, a[0].0);
        RegionalFromCons(e, acc, a);
        AdvanceRegionSum(e, acc, a[0], Called(p));
        RegionalFromSum(e, Advance(e, acc, a[0]), a[1..], p);
      } else {
        RegionalFromSum(e, acc, a[1..], p);
      }
    }
  }

  /** Each region's count of a party is the weight of the states of that
      region assigned to the party. */
  lemma RegionalContents(e: Engine, a: Assignment, region: Region, p: Party)
    requires IsDict(a)
    requires GetRegionalResults(e, a).Ok?
    ensures TotalFor(GetRegionalResults(e, a).value[region], Called(p)) ==
      SumOver(e.votes, RegionStates(e, a, region, Called(p)))
  {
    RegionalFromContents(e, EmptyRegions(), a, region, Called(p));
  }

  /** On a constructed engine every validated key has a region tag. */
  lemma ValidInputsLocatable(e: Engine, a: Assignment)
    requires Valid(e)
    requires ValidateInputs(e, a).Pass?
    ensures AllLocatable(e, a)
  {
    forall i | 0 <= i < |a| ensures Locatable(e, a[i].0) {
      assert ValidState(e, a[i].0);
    }
  }

  /** Summed over the regions, a party's counts come to its national
      total plus the weight of its split states: the breakdown has no split
      branch, while the national loop leaves split states out. */
  lemma RegionalSumIsNational(e: Engine, a: Assignment, split: set<State>, p: Party)
    requires IsDict(a)
    requires ValidateInputs(e, a).Pass?
    requires AllLocatable(e, a)
    ensures GetRegionalResults(e, a).Ok?
    ensures RegionSum(GetRegionalResults(e, a).value, Called(p)) ==
      TotalFor(CalculateElectoralVotes(e, a, split).value, p) +
      SumOver(e.votes, PartyStates(a, p) * split)
  {
    RegionalFromSum(e, EmptyRegions(), a, p);
    var mine := PartyStates(a, p);
    assert mine - {} == mine;
    SumOverSplit(e.votes, mine, split);
  }

  /** On a constructed engine, inputs that pass validation can always be
      broken down by region, and a party's regional counts add up to its
      national total plus the weight of its split states. */
  lemma RegionalMatchesNational(e: Engine, a: Assignment, split: set<State>, p: Party)
    requires Valid(e)
    requires IsDict(a)
    requires ValidateInputs(e, a).Pass?
    ensures GetRegionalResults(e, a).Ok?
    ensures RegionSum(GetRegionalResults(e, a).value, Called(p)) ==
      TotalFor(CalculateElectoralVotes(e, a, split).value, p) +
      SumOver(e.votes, PartyStates(a, p) * split)
  {
    ValidInputsLocatable(e, a);
    RegionalSumIsNational(e, a, split, p);
  }
}

=== FILE: results.dfy ===
/** Failure-carrying return values: the model's stand-in for Python's
    `None` results and raised exceptions. */
module Results {

  datatype Option<+T> = None | Some(value: T)

  /** The value of an operation that either returns or raises. */
  datatype Result<+T, +E> = Ok(value: T) | Err(error: E) {
    predicate IsFailure() { Err? }

    function PropagateFailure<U>(): Result<U, E>
      requires Err?
    {
      Err(error)
    }

    function Extract(): T
      requires Ok?
    {
      value
    }
  }

  /** The value of a check that returns nothing or raises. */
  datatype Check<+E> = Pass | Fail(error: E)
}

=== FILE: scenarios.dfy ===
/** Worked cases: the engine built from the shipped and the corrected
    configuration, the single call that the as-written calculation cannot
    survive, and the fewest-states count on a three-state map. */
module Scenarios {
  import opened Enums
  import opened Results
  import opened Errors
  import opened Weights
  import opened Config
  import opened Shipped
  import opened Calculator
  import opened Validation
  import opened Totals
  import opened Aggregation
  import opened Reachability
  import opened Election

  /** The constructor refuses the configuration as shipped and accepts it
      once the New Hampshire row is corrected. */
  lemma ShippedAndCorrectedEngines()
    ensures NewEngine(ShippedConfig) == Err(InvalidVoteCountError(ConfigurationInvalid))
    ensures NewEngine(CorrectedConfig).Ok?
  {
    ShippedConfigRejected(ShippedConfig);
    CorrectedConfigAccepted(CorrectedConfig);
  }

  /** A dictionary with one call for s passes validation when s is known
      and worth between 3 and 538 votes. */
  lemma SingleCallPasses(e: Engine, s: State, p: Party)
    requires s in e.votes && MIN_STATE_VOTES <= e.votes[s] <= TOTAL_ELECTORAL_VOTES
    ensures ValidateInputs(e, [(StateKey(s), Called(p))]).Pass?
  {
    var a := [(StateKey(s), Called(p))];
    assert a[1..] == [];
    assert CalledWeight(e, a) == e.votes[s];
    assert forall i | 0 <= i < |a| :: ValidState(e, a[i].0) && ValidParty(a[i].1);
  }

  /** A dictionary with one call calls exactly its state. */
  lemma SingleCallCalls(s: State, p: Party)
    ensures CalledStates([(StateKey(s), Called(p))]) == {s}
  {
    var a := [(StateKey(s), Called(p))];
    assert a[0].0 == StateKey(s);
  }

  /** The corrected calculation of one call gives its party the state's votes. */
  lemma SingleCallTally(e: Engine, s: State, p: Party)
    requires Valid(e)
    ensures Tally(e.votes, {}, [(StateKey(s), Called(p))]) == [(p, e.votes[s])]
  {
    var a := [(StateKey(s), Called(p))];
    ValidWeights(e);
    var t := Step(e.votes, {}, [], a[0]);
    assert t == [(p, e.votes[s])];
    assert a[1..] == [];
    assert TallyFrom(e.votes, {}, t, a[1..]) == t;
  }

  /** One call for California, in any valid engine where California carries
      54 votes: the inputs pass validation, the as-written calculation fails
      with the missing-method error, and the corrected one gives the caller's
      party California's 54 votes. */
  lemma CaliforniaCall(e: Engine, p: Party)
    requires Valid(e) && e.config.stateData[CA].electoralVotes == 54
    ensures ValidateInputs(e, [(StateKey(CA), Called(p))]).Pass?
    ensures CalculateAsWritten(e, [(StateKey(CA), Called(p))]) == Err(AttributeError("is_split_vote_state"))
    ensures CalculateElectoralVotes(e, [(StateKey(CA), Called(p))], {}) == Ok([(p, 54)])
  {
    var a := [(StateKey(CA), Called(p))];
    ValidWeights(e);
    assert e.votes[CA] == 54;
    SingleCallPasses(e, CA, p);
    SingleCallCalls(CA, p);
    AsWrittenRejectsCalls(e, a, {});
    SingleCallTally(e, CA, p);
  }

  /** The three largest states, 54 + 40 + 30 = 124 votes. */
  function BigThree(): (w: map<State, int>)
    ensures w.Keys == {CA, TX, FL}
    ensures Get(w, CA) == 54 && Get(w, TX) == 40 && Get(w, FL) == 30
  {
    map[CA := 54, TX := 40, FL := 30]
  }

  /** Two distinct states weigh their two weights together. */
  lemma PairSum(w: map<State, int>, x: State, y: State)
    requires x != y
    ensures SumOver(w, {x, y}) == Get(w, x) + Get(w, y)
  {
    SumOverSingleton(w, x);
    SumOverAdd(w, {x}, y);
    assert {x} + {y} == {x, y};
  }

  /** Three distinct states weigh their three weights together. */
  lemma TripleSum(w: map<State, int>, x: State, y: State, z: State)
    requires x != y && y != z && x != z
    ensures SumOver(w, {x, y, z}) == Get(w, x) + Get(w, y) + Get(w, z)
  {
    var pair := {x, y};
    ThreeAsUnion(x, y, z);
    PairSum(w, x, y);
    SumOverAdd(w, pair, z);
  }

  lemma ThreeAsUnion(x: State, y: State, z: State)
    requires x != y && y != z && x != z
    ensures {x, y, z} == {x, y} + {z} && z !in {x, y}
    ensures |{x, y, z}| == 3
  {
  }

  /** A set of at most one of three states weighs at most the largest weight. */
  lemma AtMostOneOfThree(w: map<State, int>, x: State, y: State, z: State, sub: set<State>, m: int)
    requires sub <= {x, y, z} && |sub| <= 1 && m >= 0
    requires Get(w, x) <= m && Get(w, y) <= m && Get(w, z) <= m
    ensures SumOver(w, sub) <= m
  {
    if sub == {} {
      SumOverEmpty(w);
    } else {
      var s :| s in sub;
      assert sub == {s} by {
        forall t | t in sub ensures t == s {
          if t != s {
            assert {s, t} <= sub;
            SubsetCardinality({s, t}, sub);
          }
        }
      }
      SumOverSingleton(w, s);
    }
  }

  /** When no single state of three reaches need but some pair does, the
      fewest-states count is 2. */
  lemma TwoOfThree(w: map<State, int>, x: State, y: State, z: State, need: int, m: int)
    requires x != y && y != z && x != z
    requires w.Keys == {x, y, z}
    requires Get(w, x) <= m && Get(w, y) <= m && Get(w, z) <= m && 0 <= m < need
    requires Get(w, x) + Get(w, y) >= need
    ensures MinimumStatesNeeded(w, need, {x, y, z}) == 2
  {
    var avail := {x, y, z};
    ThreeAsUnion(x, y, z);
    MinimumStatesNeededOptimal(w, need, avail);
    var r := MinimumStatesNeeded(w, need, avail);
    PairSum(w, x, y);
    assert |{x, y}| == 2;
    assert r <= 2;
    if r <= 1 {
      AtMostOneOfThree(w, x, y, z, Heaviest(w, avail, r), m);
      assert false;
    }
  }

  /** When three states together fall short of need, the count is 4. */
  lemma NoneOfThree(w: map<State, int>, x: State, y: State, z: State, need: int)
    requires x != y && y != z && x != z
    requires w.Keys == {x, y, z} && AtLeast(w, {x, y, z}, 0)
    requires Get(w, x) + Get(w, y) + Get(w, z) < need
    ensures MinimumStatesNeeded(w, need, {x, y, z}) == 4
  {
    var avail := {x, y, z};
    ThreeAsUnion(x, y, z);
    MinimumAgreesWithPossible(w, need, avail);
    TripleSum(w, x, y, z);
  }

  /** 80 votes need two of the three states: no single one has 80, and
      California with Texas has 94. */
  lemma BigThreeNeedTwo()
    ensures MinimumStatesNeeded(BigThree(), 80, {CA, TX, FL}) == 2
  {
    TwoOfThree(BigThree(), CA, TX, FL, 80, 54);
  }

  /** 125 votes are out of reach of all three (124), reported as one more
      than the number of states; nothing is needed for 0. */
  lemma BigThreeOutOfReach()
    ensures MinimumStatesNeeded(BigThree(), 125, {CA, TX, FL}) == 4
    ensures MinimumStatesNeeded(BigThree(), 0, {CA, TX, FL}) == 0
  {
    var w := BigThree();
    assert AtLeast(w, {CA, TX, FL}, 0) by {
      forall s | s in {CA, TX, FL} ensures Get(w, s) >= 0 {
        if s == CA {} else if s == TX {} else {}
      }
    }
    NoneOfThree(w, CA, TX, FL, 125);
  }

  /** With 200 votes in hand and the three states uncalled, a party needs
      70 more, can still win, and needs two states to do it. */
  lemma BigThreePath()
    ensures PathFor(BigThree(), 200, 124, {CA, TX, FL}) == PathAnalysis(200, 70, true, 2)
  {
    TwoOfThree(BigThree(), CA, TX, FL, 70, 54);
  }

  /** A finished count: the first party at 270 or more is the winner, and
      a count where nobody reaches 270 has none. */
  lemma WinnerOfCounts()
    ensures FirstWinner([(DEM, 226), (REP, 312)]) == Some(REP)
    ensures FirstWinner([(DEM, 269), (REP, 269)]) == None
  {
    var t := [(DEM, 226), (REP, 312)];
    assert t[1..] == [(REP, 312)];
    var u := [(DEM, 269), (REP, 269)];
    assert u[1..] == [(REP, 269)];
  }
}

=== FILE: shipped.dfy ===
/** Facts about the configuration as shipped: the region lists agree with
    the row tags, the table sums to 538, the region summaries, and the
    New Hampshire row that makes the shipped data fail its own check. */
module Shipped {
  import opened Enums
  import opened Results
  import opened Weights
  import opened Config

  // ---------------------------------------------------------------------
  // Facts about the shipped data
  // ---------------------------------------------------------------------

  /** The region lists are five, and a state is in a region's list exactly
      when its row carries that region's tag; so the lists are pairwise
      disjoint, cover all 51 states, and agree with the tags. */
  lemma RegionListsMatchTags()
    ensures ShippedRegions().Keys == Elements(AllRegions)
    ensures forall s: State, r: Region ::
      r in ShippedRegions() && s in ShippedRegions()[r] <==> ShippedInfo(s).region == Some(r)
  {
    forall s: State, r: Region
      ensures r in ShippedRegions() && s in ShippedRegions()[r] <==> ShippedInfo(s).region == Some(r)
    {
      match r
      case Northeast => NortheastListMatchesTags(); NortheastTagsInList();
      case Midwest => MidwestListMatchesTags(); MidwestTagsInList();
      case South => SouthListMatchesTags(); SouthTagsInList();
      case West => WestListMatchesTags(); WestTagsInList();
      case District => DistrictListMatchesTags(); DistrictTagsInList();
    }
  }

  /** A region's state list, read through the configuration, holds exactly
      the states whose row carries that region's tag. */
  lemma StatesInRegionMatchTags(c: Config)
    requires c.regions == ShippedRegions()
    ensures forall s: State, r: Region ::
      s in GetStatesInRegion(c, r) <==> ShippedInfo(s).region == Some(r)
  {
    RegionListsMatchTags();
    AllRegionsComplete();
  }

  /** The classification sets: six swing states, none of them with a
      historical leaning; the two historical lists are disjoint, so the order
      in which the leaning lookup consults them does not matter; and the
      split-vote set is exactly the rows flagged as split. */
  lemma ClassificationFacts()
    ensures |SwingStates| == 6
    ensures SwingStates * (HistoricallyDemocratic + HistoricallyRepublican) == {}
    ensures HistoricallyDemocratic * HistoricallyRepublican == {}
    ensures forall s: State :: ShippedInfo(s).isSplitVote <==> s in SplitVoteStates
  {
    SwingStatesCount();
    LeaningsDisjoint();
  }

  lemma SwingStatesCount()
    ensures |SwingStates| == 6
  {
    var six := [AZ, GA, MI, NV, PA, WI];
    assert SwingStates == Elements(six);
    assert Distinct(six);
    DistinctCardinality(six);
  }

  lemma LeaningsDisjoint()
    ensures SwingStates * (HistoricallyDemocratic + HistoricallyRepublican) == {}
    ensures HistoricallyDemocratic * HistoricallyRepublican == {}
  {
    forall s | s in SwingStates ensures s !in HistoricallyDemocratic + HistoricallyRepublican {
    }
    forall s | s in HistoricallyDemocratic ensures s !in HistoricallyRepublican {
    }
  }

  lemma NortheastListMatchesTags()
    ensures forall s: State :: s in NortheastStates() ==> ShippedInfo(s).region == Some(Northeast)
  {
    var list := NortheastStates();
    NortheastListMatchesTagsLow();
    NortheastListMatchesTagsHigh();
    assert forall i | 0 <= i < |list| :: RegionTag(list[i]) == Northeast;
  }

  lemma NortheastListMatchesTagsLow()
    ensures forall i | 0 <= i < 4 :: RegionTag(NortheastStates()[i]) == Northeast
  {
    var list := NortheastStates();
    forall i | 0 <= i < 4 ensures RegionTag(list[i]) == Northeast {
      if i == 0 {} else if i == 1 {} else if i == 2 {} else {}
    }
  }

  lemma NortheastListMatchesTagsHigh()
    ensures forall i | 4 <= i < 9 :: RegionTag(NortheastStates()[i]) == Northeast
  {
    var list := NortheastStates();
    forall i | 4 <= i < 9 ensures RegionTag(list[i]) == Northeast {
      if i == 4 {} else if i == 5 {} else if i == 6 {} else if i == 7 {} else {}
    }
  }

  lemma NortheastTagsInList()
    ensures forall s: State :: ShippedInfo(s).region == Some(Northeast) ==> s in NortheastStates()
  {
    var list := NortheastStates();
    forall s: State | ShippedInfo(s).region == Some(Northeast) ensures s in list {
      match s
        case AL =>
        case AK =>
        case AZ =>
        case AR =>
        case CA =>
        case CO =>
        case CT =>
        case DE =>
        case DC =>
        case FL =>
        case GA =>
        case HI =>
        case ID =>
        case IL =>
        case IN =>
        case IA =>
        case KS =>
        case KY =>
        case LA =>
        case ME =>
        case MD =>
        case MA =>
        case MI =>
        case MN =>
        case MS =>
        case MO =>
        case MT =>
        case NE =>
        case NV =>
        case NH =>
        case NJ =>
        case NM =>
        case NY =>
        case NC =>
        case ND =>
        case OH =>
        case OK =>
        case OR =>
        case PA =>
        case RI =>
        case SC =>
        case SD =>
        case TN =>
        case TX =>
        case UT =>
        case VT =>
        case VA =>
        case WA =>
        case WV =>
        case WI =>
        case WY =>
    }
  }

  lemma MidwestListMatchesTags()
    ensures forall s: State :: s in MidwestStates() ==> ShippedInfo(s).region == Some(Midwest)
  {
    var list := MidwestStates();
    MidwestListMatchesTagsLow();
    MidwestListMatchesTagsHigh();
    assert forall i | 0 <= i < |list| :: RegionTag(list[i]) == Midwest;
  }

  lemma MidwestListMatchesTagsLow()
    ensures forall i | 0 <= i < 6 :: RegionTag(MidwestStates()[i]) == Midwest
  {
    var list := MidwestStates();
    forall i | 0 <= i < 6 ensures RegionTag(list[i]) == Midwest {
      if i == 0 {} else if i == 1 {} else if i == 2 {} else if i == 3 {} else if i == 4 {} else {}
    }
  }

  lemma MidwestListMatchesTagsHigh()
    ensures forall i | 6 <= i < 12 :: RegionTag(MidwestStates()[i]) == Midwest
  {
    var list := MidwestStates();
    forall i | 6 <= i < 12 ensures RegionTag(list[i]) == Midwest {
      if i == 6 {} else if i == 7 {} else if i == 8 {} else if i == 9 {} else if i == 10 {} else {}
    }
  }

  lemma MidwestTagsInList()
    ensures forall s: State :: ShippedInfo(s).region == Some(Midwest) ==> s in MidwestStates()
  {
    var list := MidwestStates();
    forall s: State | ShippedInfo(s).region == Some(Midwest) ensures s in list {
      match s
        case AL =>
        case AK =>
        case AZ =>
        case AR =>
        case CA =>
        case CO =>
        case CT =>
        case DE =>
        case DC =>
        case FL =>
        case GA =>
        case HI =>
        case ID =>
        case IL =>
        case IN =>
        case IA =>
        case KS =>
        case KY =>
        case LA =>
        case ME =>
        case MD =>
        case MA =>
        case MI =>
        case MN =>
        case MS =>
        case MO =>
        case MT =>
        case NE =>
        case NV =>
        case NH =>
        case NJ =>
        case NM =>
        case NY =>
        case NC =>
        case ND =>
        case OH =>
        case OK =>
        case OR =>
        case PA =>
        case RI =>
        case SC =>
        case SD =>
        case TN =>
        case TX =>
        case UT =>
        case VT =>
        case VA =>
        case WA =>
        case WV =>
        case WI =>
        case WY =>
    }
  }

  lemma SouthListMatchesTags()
    ensures forall s: State :: s in SouthStates() ==> ShippedInfo(s).region == Some(South)
  {
    var list := SouthStates();
    SouthListMatchesTagsLow();
    SouthListMatchesTagsHigh();
    assert forall i | 0 <= i < |list| :: RegionTag(list[i]) == South;
  }

  lemma SouthListMatchesTagsLow()
    ensures forall i | 0 <= i < 8 :: RegionTag(SouthStates()[i]) == South
  {
    var list := SouthStates();
    forall i | 0 <= i < 8 ensures RegionTag(list[i]) == South {
      if i == 0 {} else if i == 1 {} else if i == 2 {} else if i == 3 {} else if i == 4 {} else if i == 5 {} else if i == 6 {} else {}
    }
  }

  lemma SouthListMatchesTagsHigh()
    ensures forall i | 8 <= i < 16 :: RegionTag(SouthStates()[i]) == South
  {
    var list := SouthStates();
    forall i | 8 <= i < 16 ensures RegionTag(list[i]) == South {
      if i == 8 {} else if i == 9 {} else if i == 10 {} else if i == 11 {} else if i == 12 {} else if i == 13 {} else if i == 14 {} else {}
    }
  }

  lemma SouthTagsInList()
    ensures forall s: State :: ShippedInfo(s).region == Some(South) ==> s in SouthStates()
  {
    var list := SouthStates();
    forall s: State | ShippedInfo(s).region == Some(South) ensures s in list {
      match s
        case AL =>
        case AK =>
        case AZ =>
        case AR =>
        case CA =>
        case CO =>
        case CT =>
        case DE =>
        case DC =>
        case FL =>
        case GA =>
        case HI =>
        case ID =>
        case IL =>
        case IN =>
        case IA =>
        case KS =>
        case KY =>
        case LA =>
        case ME =>
        case MD =>
        case MA =>
        case MI =>
        case MN =>
        case MS =>
        case MO =>
        case MT =>
        case NE =>
        case NV =>
        case NH =>
        case NJ =>
        case NM =>
        case NY =>
        case NC =>
        case ND =>
        case OH =>
        case OK =>
        case OR =>
        case PA =>
        case RI =>
        case SC =>
        case SD =>
        case TN =>
        case TX =>
        case UT =>
        case VT =>
        case VA =>
        case WA =>
        case WV =>
        case WI =>
        case WY =>
    }
  }

  lemma WestListMatchesTags()
    ensures forall s: State :: s in WestStates() ==> ShippedInfo(s).region == Some(West)
  {
    var list := WestStates();
    WestListMatchesTagsLow();
    WestListMatchesTagsHigh();
    assert forall i | 0 <= i < |list| :: RegionTag(list[i]) == West;
  }

  lemma WestListMatchesTagsLow()
    ensures forall i | 0 <= i < 6 :: RegionTag(WestStates()[i]) == West
  {
    var list := WestStates();
    forall i | 0 <= i < 6 ensures RegionTag(list[i]) == West {
      if i == 0 {} else if i == 1 {} else if i == 2 {} else if i == 3 {} else if i == 4 {} else {}
    }
  }

  lemma WestListMatchesTagsHigh()
    ensures forall i | 6 <= i < 13 :: RegionTag(WestStates()[i]) == West
  {
    var list := WestStates();
    forall i | 6 <= i < 13 ensures RegionTag(list[i]) == West {
      if i == 6 {} else if i == 7 {} else if i == 8 {} else if i == 9 {} else if i == 10 {} else if i == 11 {} else {}
    }
  }

  lemma WestTagsInList()
    ensures forall s: State :: ShippedInfo(s).region == Some(West) ==> s in WestStates()
  {
    var list := WestStates();
    forall s: State | ShippedInfo(s).region == Some(West) ensures s in list {
      match s
        case AL =>
        case AK =>
        case AZ =>
        case AR =>
        case CA =>
        case CO =>
        case CT =>
        case DE =>
        case DC =>
        case FL =>
        case GA =>
        case HI =>
        case ID =>
        case IL =>
        case IN =>
        case IA =>
        case KS =>
        case KY =>
        case LA =>
        case ME =>
        case MD =>
        case MA =>
        case MI =>
        case MN =>
        case MS =>
        case MO =>
        case MT =>
        case NE =>
        case NV =>
        case NH =>
        case NJ =>
        case NM =>
        case NY =>
        case NC =>
        case ND =>
        case OH =>
        case OK =>
        case OR =>
        case PA =>
        case RI =>
        case SC =>
        case SD =>
        case TN =>
        case TX =>
        case UT =>
        case VT =>
        case VA =>
        case WA =>
        case WV =>
        case WI =>
        case WY =>
    }
  }

  lemma DistrictListMatchesTags()
    ensures forall s: State :: s in DistrictStates() ==> ShippedInfo(s).region == Some(District)
  {
    var list := DistrictStates();
    forall i | 0 <= i < |list| ensures ShippedInfo(list[i]).region == Some(District) {
      
    }
  }

  lemma DistrictTagsInList()
    ensures forall s: State :: ShippedInfo(s).region == Some(District) ==> s in DistrictStates()
  {
    var list := DistrictStates();
    forall s: State | ShippedInfo(s).region == Some(District) ensures s in list {
      match s
        case AL =>
        case AK =>
        case AZ =>
        case AR =>
        case CA =>
        case CO =>
        case CT =>
        case DE =>
        case DC =>
        case FL =>
        case GA =>
        case HI =>
        case ID =>
        case IL =>
        case IN =>
        case IA =>
        case KS =>
        case KY =>
        case LA =>
        case ME =>
        case MD =>
        case MA =>
        case MI =>
        case MN =>
        case MS =>
        case MO =>
        case MT =>
        case NE =>
        case NV =>
        case NH =>
        case NJ =>
        case NM =>
        case NY =>
        case NC =>
        case ND =>
        case OH =>
        case OK =>
        case OR =>
        case PA =>
        case RI =>
        case SC =>
        case SD =>
        case TN =>
        case TX =>
        case UT =>
        case VT =>
        case VA =>
        case WA =>
        case WV =>
        case WI =>
        case WY =>
    }
  }

  /** A configured state's weight is its row's electoral votes. */
  lemma ShippedWeights(c: Config)
    requires c.stateData == ShippedTable()
    ensures forall s: State :: Get(VotesTable(c), s) == ShippedVotes(s)
  {
  }

  /** The shipped votes of a list of states, read straight off the table. */
  function ShippedVoteSum(xs: seq<State>): int {
    if xs == [] then 0 else ShippedVotes(xs[0]) + ShippedVoteSum(xs[1..])
  }

  lemma {:induction false} ShippedSumW(c: Config, xs: seq<State>)
    requires c.stateData == ShippedTable()
    ensures SumW(VotesTable(c), xs) == ShippedVoteSum(xs)
  {
    if xs != [] {
      ShippedWeights(c);
      ShippedSumW(c, xs[1..]);
    }
  }

  lemma {:induction false} SwingCountConcat(a: seq<State>, b: seq<State>)
    ensures SwingCount(a + b) == SwingCount(a) + SwingCount(b)
  {
    if a == [] {
      assert a + b == b;
    } else {
      SwingCountConcat(a[1..], b);
      assert (a + b)[1..] == a[1..] + b;
    }
  }

  lemma {:induction false} ShippedVoteSumConcat(a: seq<State>, b: seq<State>)
    ensures ShippedVoteSum(a + b) == ShippedVoteSum(a) + ShippedVoteSum(b)
  {
    if a == [] {
      assert a + b == b;
    } else {
      ShippedVoteSumConcat(a[1..], b);
      assert (a + b)[1..] == a[1..] + b;
    }
  }

  // One lemma per row: the solver evaluates the table for one state at a time
  // cheaply, but not for several states in one proof.
  lemma VotesOfME() ensures ShippedVotes(ME) == 4 {}
  lemma VotesOfNH() ensures ShippedVotes(NH) == 4 {}
  lemma VotesOfVT() ensures ShippedVotes(VT) == 3 {}
  lemma VotesOfMA() ensures ShippedVotes(MA) == 11 {}
  lemma VotesOfRI() ensures ShippedVotes(RI) == 4 {}
  lemma VotesOfCT() ensures ShippedVotes(CT) == 7 {}
  lemma VotesOfNY() ensures ShippedVotes(NY) == 28 {}
  lemma VotesOfNJ() ensures ShippedVotes(NJ) == 14 {}
  lemma VotesOfPA() ensures ShippedVotes(PA) == 19 {}
  lemma VotesOfOH() ensures ShippedVotes(OH) == 17 {}
  lemma VotesOfIN() ensures ShippedVotes(IN) == 11 {}
  lemma VotesOfIL() ensures ShippedVotes(IL) == 19 {}
  lemma VotesOfMI() ensures ShippedVotes(MI) == 15 {}
  lemma VotesOfWI() ensures ShippedVotes(WI) == 10 {}
  lemma VotesOfMN() ensures ShippedVotes(MN) == 10 {}
  lemma VotesOfIA() ensures ShippedVotes(IA) == 6 {}
  lemma VotesOfMO() ensures ShippedVotes(MO) == 10 {}
  lemma VotesOfND() ensures ShippedVotes(ND) == 3 {}
  lemma VotesOfSD() ensures ShippedVotes(SD) == 3 {}
  lemma VotesOfNE() ensures ShippedVotes(NE) == 5 {}
  lemma VotesOfKS() ensures ShippedVotes(KS) == 6 {}
  lemma VotesOfDE() ensures ShippedVotes(DE) == 3 {}
  lemma VotesOfMD() ensures ShippedVotes(MD) == 10 {}
  lemma VotesOfVA() ensures ShippedVotes(VA) == 13 {}
  lemma VotesOfWV() ensures ShippedVotes(WV) == 4 {}
  lemma VotesOfNC() ensures ShippedVotes(NC) == 16 {}
  lemma VotesOfSC() ensures ShippedVotes(SC) == 9 {}
  lemma VotesOfGA() ensures ShippedVotes(GA) == 16 {}
  lemma VotesOfFL() ensures ShippedVotes(FL) == 30 {}
  lemma VotesOfKY() ensures ShippedVotes(KY) == 8 {}
  lemma VotesOfTN() ensures ShippedVotes(TN) == 11 {}
  lemma VotesOfAL() ensures ShippedVotes(AL) == 9 {}
  lemma VotesOfMS() ensures ShippedVotes(MS) == 6 {}
  lemma VotesOfAR() ensures ShippedVotes(AR) == 6 {}
  lemma VotesOfLA() ensures ShippedVotes(LA) == 8 {}
  lemma VotesOfOK() ensures ShippedVotes(OK) == 7 {}
  lemma VotesOfTX() ensures ShippedVotes(TX) == 40 {}
  lemma VotesOfMT() ensures ShippedVotes(MT) == 4 {}
  lemma VotesOfID() ensures ShippedVotes(ID) == 4 {}
  lemma VotesOfWY() ensures ShippedVotes(WY) == 3 {}
  lemma VotesOfCO() ensures ShippedVotes(CO) == 10 {}
  lemma VotesOfNM() ensures ShippedVotes(NM) == 5 {}
  lemma VotesOfAZ() ensures ShippedVotes(AZ) == 11 {}
  lemma VotesOfUT() ensures ShippedVotes(UT) == 6 {}
  lemma VotesOfNV() ensures ShippedVotes(NV) == 6 {}
  lemma VotesOfWA() ensures ShippedVotes(WA) == 12 {}
  lemma VotesOfOR() ensures ShippedVotes(OR) == 8 {}
  lemma VotesOfCA() ensures ShippedVotes(CA) == 54 {}
  lemma VotesOfAK() ensures ShippedVotes(AK) == 3 {}
  lemma VotesOfHI() ensures ShippedVotes(HI) == 4 {}
  lemma VotesOfDC() ensures ShippedVotes(DC) == 3 {}

  lemma ShippedRow0Votes()
    ensures ShippedVoteSum(StatesRow0) == 136
  {
    VotesOfAL(); VotesOfAK(); VotesOfAZ(); VotesOfAR(); VotesOfCA(); VotesOfCO(); VotesOfCT(); VotesOfDE(); VotesOfDC(); VotesOfFL();
  }

  lemma ShippedRow1Votes()
    ensures ShippedVoteSum(StatesRow1) == 86
  {
    VotesOfGA(); VotesOfHI(); VotesOfID(); VotesOfIL(); VotesOfIN(); VotesOfIA(); VotesOfKS(); VotesOfKY(); VotesOfLA(); VotesOfME();
  }

  lemma ShippedRow2Votes()
    ensures ShippedVoteSum(StatesRow2) == 81
  {
    VotesOfMD(); VotesOfMA(); VotesOfMI(); VotesOfMN(); VotesOfMS(); VotesOfMO(); VotesOfMT(); VotesOfNE(); VotesOfNV(); VotesOfNH();
  }

  lemma ShippedRow3Votes()
    ensures ShippedVoteSum(StatesRow3) == 121
  {
    VotesOfNJ(); VotesOfNM(); VotesOfNY(); VotesOfNC(); VotesOfND(); VotesOfOH(); VotesOfOK(); VotesOfOR(); VotesOfPA(); VotesOfRI();
  }

  lemma ShippedRow4Votes()
    ensures ShippedVoteSum(StatesRow4) == 111
  {
    VotesOfSC(); VotesOfSD(); VotesOfTN(); VotesOfTX(); VotesOfUT(); VotesOfVT(); VotesOfVA(); VotesOfWA(); VotesOfWV(); VotesOfWI();
  }

  lemma ShippedRow5Votes()
    ensures ShippedVoteSum(StatesRow5) == 3
  {
    VotesOfWY();
  }

  /** The rows of the table, in declaration order, sum to 538. */
  lemma ShippedVoteSumAll()
    ensures ShippedVoteSum(AllStates) == TOTAL_ELECTORAL_VOTES
  {
    ShippedVoteSumConcat(StatesRow0 + StatesRow1 + StatesRow2 + StatesRow3 + StatesRow4, StatesRow5);
    ShippedVoteSumConcat(StatesRow0 + StatesRow1 + StatesRow2 + StatesRow3, StatesRow4);
    ShippedVoteSumConcat(StatesRow0 + StatesRow1 + StatesRow2, StatesRow3);
    ShippedVoteSumConcat(StatesRow0 + StatesRow1, StatesRow2);
    ShippedVoteSumConcat(StatesRow0, StatesRow1);
    ShippedRow0Votes();
    ShippedRow1Votes();
    ShippedRow2Votes();
    ShippedRow3Votes();
    ShippedRow4Votes();
    ShippedRow5Votes();
  }

  /** The shipped table has 51 rows, each worth at least 3 votes, summing to
      538; 270 is the least majority of 538. */
  lemma ShippedTotals(c: Config)
    requires c.stateData == ShippedTable()
    ensures |c.stateData| == 51
    ensures forall s: State :: ShippedInfo(s).electoralVotes >= MIN_STATE_VOTES
    ensures SumOver(VotesTable(c), StateSet()) == TOTAL_ELECTORAL_VOTES
    ensures VOTES_TO_WIN == TOTAL_ELECTORAL_VOTES / 2 + 1
  {
    ShippedRowCount(c);
    MinimumVotes();
    ShippedSum(c);
  }

  lemma ShippedRowCount(c: Config)
    requires c.stateData == ShippedTable()
    ensures |c.stateData| == 51
  {
    assert c.stateData.Keys == StateSet();
    EnumerateAll();
  }

  lemma ShippedSum(c: Config)
    requires c.stateData == ShippedTable()
    ensures SumOver(VotesTable(c), StateSet()) == TOTAL_ELECTORAL_VOTES
  {
    EnumerateAll();
    ShippedSumW(c, AllStates);
    ShippedVoteSumAll();
  }

  // ---------------------------------------------------------------------
  // Region summaries of the shipped data
  // ---------------------------------------------------------------------

  /** A region summary is assembled from its list's vote sum and swing count. */
  lemma SummaryFromParts(c: Config, r: Region, votes: int, swing: nat)
    requires ListVotes(c, GetStatesInRegion(c, r)) == Ok(votes)
    requires SwingCount(GetStatesInRegion(c, r)) == swing
    ensures GetRegionSummary(c, r) == Ok(RegionSummary(RegionName(r), |GetStatesInRegion(c, r)|, votes, swing))
  {
  }

  lemma NortheastVotesPart0()
    ensures ShippedVoteSum([ME, NH, VT, MA, RI, CT]) == 33
  {
    VotesOfME(); VotesOfNH(); VotesOfVT(); VotesOfMA(); VotesOfRI(); VotesOfCT();
  }

  lemma NortheastVotesPart1()
    ensures ShippedVoteSum([NY, NJ, PA]) == 61
  {
    VotesOfNY(); VotesOfNJ(); VotesOfPA();
  }

  lemma NortheastVotes()
    ensures ShippedVoteSum(NortheastStates()) == 94
  {
    ShippedVoteSumConcat([ME, NH, VT, MA, RI, CT], [NY, NJ, PA]);
    NortheastVotesPart0();
    NortheastVotesPart1();
    assert NortheastStates() == [ME, NH, VT, MA, RI, CT] + [NY, NJ, PA];
  }

  lemma NortheastSwingPart0()
    ensures SwingCount([ME, NH, VT, MA]) == 0
  {
  }

  lemma NortheastSwingPart1()
    ensures SwingCount([RI, CT, NY, NJ]) == 0
  {
  }

  lemma NortheastSwingPart2()
    ensures SwingCount([PA]) == 1
  {
  }

  lemma NortheastSwingCount()
    ensures SwingCount(NortheastStates()) == 1
  {
    SwingCountConcat([ME, NH, VT, MA] + [RI, CT, NY, NJ], [PA]);
    SwingCountConcat([ME, NH, VT, MA], [RI, CT, NY, NJ]);
    NortheastSwingPart0();
    NortheastSwingPart1();
    NortheastSwingPart2();
    assert NortheastStates() == [ME, NH, VT, MA] + [RI, CT, NY, NJ] + [PA];
  }

  lemma NortheastListed(c: Config)
    requires c.regions == ShippedRegions()
    ensures GetStatesInRegion(c, Northeast) == NortheastStates()
  {
  }

  lemma NortheastListVotes(c: Config)
    requires c.stateData == ShippedTable() && c.regions == ShippedRegions()
    ensures ListVotes(c, GetStatesInRegion(c, Northeast)) == Ok(94)
  {
    NortheastListed(c);
    ShippedSumW(c, NortheastStates());
    NortheastVotes();
  }

  lemma NortheastListSwing(c: Config)
    requires c.regions == ShippedRegions()
    ensures SwingCount(GetStatesInRegion(c, Northeast)) == 1
  {
    NortheastListed(c);
    NortheastSwingCount();
  }

  /** The Northeast summary of a configuration holding the shipped table and
      region lists. */
  lemma NortheastSummary(c: Config)
    requires c.stateData == ShippedTable() && c.regions == ShippedRegions()
    ensures GetRegionSummary(c, Northeast) == Ok(RegionSummary(RegionName(Northeast), 9, 94, 1))
  {
    NortheastListVotes(c);
    NortheastListSwing(c);
    NortheastListed(c);
    SummaryFromParts(c, Northeast, 94, 1);
  }

  lemma MidwestVotesPart0()
    ensures ShippedVoteSum([OH, IN, IL, MI, WI, MN]) == 82
  {
    VotesOfOH(); VotesOfIN(); VotesOfIL(); VotesOfMI(); VotesOfWI(); VotesOfMN();
  }

  lemma MidwestVotesPart1()
    ensures ShippedVoteSum([IA, MO, ND, SD, NE, KS]) == 33
  {
    VotesOfIA(); VotesOfMO(); VotesOfND(); VotesOfSD(); VotesOfNE(); VotesOfKS();
  }

  lemma MidwestVotes()
    ensures ShippedVoteSum(MidwestStates()) == 115
  {
    ShippedVoteSumConcat([OH, IN, IL, MI, WI, MN], [IA, MO, ND, SD, NE, KS]);
    MidwestVotesPart0();
    MidwestVotesPart1();
    assert MidwestStates() == [OH, IN, IL, MI, WI, MN] + [IA, MO, ND, SD, NE, KS];
  }

  lemma MidwestSwingPart0()
    ensures SwingCount([OH, IN, IL, MI]) == 1
  {
  }

  lemma MidwestSwingPart1()
    ensures SwingCount([WI, MN, IA, MO]) == 1
  {
  }

  lemma MidwestSwingPart2()
    ensures SwingCount([ND, SD, NE, KS]) == 0
  {
  }

  lemma MidwestSwingCount()
    ensures SwingCount(MidwestStates()) == 2
  {
    SwingCountConcat([OH, IN, IL, MI] + [WI, MN, IA, MO], [ND, SD, NE, KS]);
    SwingCountConcat([OH, IN, IL, MI], [WI, MN, IA, MO]);
    MidwestSwingPart0();
    MidwestSwingPart1();
    MidwestSwingPart2();
    assert MidwestStates() == [OH, IN, IL, MI] + [WI, MN, IA, MO] + [ND, SD, NE, KS];
  }

  lemma MidwestListed(c: Config)
    requires c.regions == ShippedRegions()
    ensures GetStatesInRegion(c, Midwest) == MidwestStates()
  {
  }

  lemma MidwestListVotes(c: Config)
    requires c.stateData == ShippedTable() && c.regions == ShippedRegions()
    ensures ListVotes(c, GetStatesInRegion(c, Midwest)) == Ok(115)
  {
    MidwestListed(c);
    ShippedSumW(c, MidwestStates());
    MidwestVotes();
  }

  lemma MidwestListSwing(c: Config)
    requires c.regions == ShippedRegions()
    ensures SwingCount(GetStatesInRegion(c, Midwest)) == 2
  {
    MidwestListed(c);
    MidwestSwingCount();
  }

  /** The Midwest summary of a configuration holding the shipped table and
      region lists. */
  lemma MidwestSummary(c: Config)
    requires c.stateData == ShippedTable() && c.regions == ShippedRegions()
    ensures GetRegionSummary(c, Midwest) == Ok(RegionSummary(RegionName(Midwest), 12, 115, 2))
  {
    MidwestListVotes(c);
    MidwestListSwing(c);
    MidwestListed(c);
    SummaryFromParts(c, Midwest, 115, 2);
  }

  lemma SouthVotesPart0()
    ensures ShippedVoteSum([DE, MD, VA, WV, NC, SC]) == 55
  {
    VotesOfDE(); VotesOfMD(); VotesOfVA(); VotesOfWV(); VotesOfNC(); VotesOfSC();
  }

  lemma SouthVotesPart1()
    ensures ShippedVoteSum([GA, FL, KY, TN, AL, MS]) == 80
  {
    VotesOfGA(); VotesOfFL(); VotesOfKY(); VotesOfTN(); VotesOfAL(); VotesOfMS();
  }

  lemma SouthVotesPart2()
    ensures ShippedVoteSum([AR, LA, OK, TX]) == 61
  {
    VotesOfAR(); VotesOfLA(); VotesOfOK(); VotesOfTX();
  }

  lemma SouthVotes()
    ensures ShippedVoteSum(SouthStates()) == 196
  {
    ShippedVoteSumConcat([DE, MD, VA, WV, NC, SC] + [GA, FL, KY, TN, AL, MS], [AR, LA, OK, TX]);
    ShippedVoteSumConcat([DE, MD, VA, WV, NC, SC], [GA, FL, KY, TN, AL, MS]);
    SouthVotesPart0();
    SouthVotesPart1();
    SouthVotesPart2();
    assert SouthStates() == [DE, MD, VA, WV, NC, SC] + [GA, FL, KY, TN, AL, MS] + [AR, LA, OK, TX];
  }

  lemma SouthSwingPart0()
    ensures SwingCount([DE, MD, VA, WV]) == 0
  {
  }

  lemma SouthSwingPart1()
    ensures SwingCount([NC, SC, GA, FL]) == 1
  {
  }

  lemma SouthSwingPart2()
    ensures SwingCount([KY, TN, AL, MS]) == 0
  {
  }

  lemma SouthSwingPart3()
    ensures SwingCount([AR, LA, OK, TX]) == 0
  {
  }

  lemma SouthSwingCount()
    ensures SwingCount(SouthStates()) == 1
  {
    SwingCountConcat([DE, MD, VA, WV] + [NC, SC, GA, FL] + [KY, TN, AL, MS], [AR, LA, OK, TX]);
    SwingCountConcat([DE, MD, VA, WV] + [NC, SC, GA, FL], [KY, TN, AL, MS]);
    SwingCountConcat([DE, MD, VA, WV], [NC, SC, GA, FL]);
    SouthSwingPart0();
    SouthSwingPart1();
    SouthSwingPart2();
    SouthSwingPart3();
    assert SouthStates() == [DE, MD, VA, WV] + [NC, SC, GA, FL] + [KY, TN, AL, MS] + [AR, LA, OK, TX];
  }

  lemma SouthListed(c: Config)
    requires c.regions == ShippedRegions()
    ensures GetStatesInRegion(c, South) == SouthStates()
  {
  }

  lemma SouthListVotes(c: Config)
    requires c.stateData == ShippedTable() && c.regions == ShippedRegions()
    ensures ListVotes(c, GetStatesInRegion(c, South)) == Ok(196)
  {
    SouthListed(c);
    ShippedSumW(c, SouthStates());
    SouthVotes();
  }

  lemma SouthListSwing(c: Config)
    requires c.regions == ShippedRegions()
    ensures SwingCount(GetStatesInRegion(c, South)) == 1
  {
    SouthListed(c);
    SouthSwingCount();
  }

  /** The South summary of a configuration holding the shipped table and
      region lists. */
  lemma SouthSummary(c: Config)
    requires c.stateData == ShippedTable() && c.regions == ShippedRegions()
    ensures GetRegionSummary(c, South) == Ok(RegionSummary(RegionName(South), 16, 196, 1))
  {
    SouthListVotes(c);
    SouthListSwing(c);
    SouthListed(c);
    SummaryFromParts(c, South, 196, 1);
  }

  lemma WestVotesPart0()
    ensures ShippedVoteSum([MT, ID, WY, CO, NM, AZ]) == 37
  {
    VotesOfMT(); VotesOfID(); VotesOfWY(); VotesOfCO(); VotesOfNM(); VotesOfAZ();
  }

  lemma WestVotesPart1()
    ensures ShippedVoteSum([UT, NV, WA, OR, CA, AK]) == 89
  {
    VotesOfUT(); VotesOfNV(); VotesOfWA(); VotesOfOR(); VotesOfCA(); VotesOfAK();
  }

  lemma WestVotesPart2()
    ensures ShippedVoteSum([HI]) == 4
  {
    VotesOfHI();
  }

  lemma WestVotes()
    ensures ShippedVoteSum(WestStates()) == 130
  {
    ShippedVoteSumConcat([MT, ID, WY, CO, NM, AZ] + [UT, NV, WA, OR, CA, AK], [HI]);
    ShippedVoteSumConcat([MT, ID, WY, CO, NM, AZ], [UT, NV, WA, OR, CA, AK]);
    WestVotesPart0();
    WestVotesPart1();
    WestVotesPart2();
    assert WestStates() == [MT, ID, WY, CO, NM, AZ] + [UT, NV, WA, OR, CA, AK] + [HI];
  }

  lemma WestSwingPart0()
    ensures SwingCount([MT, ID, WY, CO]) == 0
  {
  }

  lemma WestSwingPart1()
    ensures SwingCount([NM, AZ, UT, NV]) == 2
  {
  }

  lemma WestSwingPart2()
    ensures SwingCount([WA, OR, CA, AK]) == 0
  {
  }

  lemma WestSwingPart3()
    ensures SwingCount([HI]) == 0
  {
  }

  lemma WestSwingCount()
    ensures SwingCount(WestStates()) == 2
  {
    SwingCountConcat([MT, ID, WY, CO] + [NM, AZ, UT, NV] + [WA, OR, CA, AK], [HI]);
    SwingCountConcat([MT, ID, WY, CO] + [NM, AZ, UT, NV], [WA, OR, CA, AK]);
    SwingCountConcat([MT, ID, WY, CO], [NM, AZ, UT, NV]);
    WestSwingPart0();
    WestSwingPart1();
    WestSwingPart2();
    WestSwingPart3();
    assert WestStates() == [MT, ID, WY, CO] + [NM, AZ, UT, NV] + [WA, OR, CA, AK] + [HI];
  }

  lemma WestListed(c: Config)
    requires c.regions == ShippedRegions()
    ensures GetStatesInRegion(c, West) == WestStates()
  {
  }

  lemma WestListVotes(c: Config)
    requires c.stateData == ShippedTable() && c.regions == ShippedRegions()
    ensures ListVotes(c, GetStatesInRegion(c, West)) == Ok(130)
  {
    WestListed(c);
    ShippedSumW(c, WestStates());
    WestVotes();
  }

  lemma WestListSwing(c: Config)
    requires c.regions == ShippedRegions()
    ensures SwingCount(GetStatesInRegion(c, West)) == 2
  {
    WestListed(c);
    WestSwingCount();
  }

  /** The West summary of a configuration holding the shipped table and
      region lists. */
  lemma WestSummary(c: Config)
    requires c.stateData == ShippedTable() && c.regions == ShippedRegions()
    ensures GetRegionSummary(c, West) == Ok(RegionSummary(RegionName(West), 13, 130, 2))
  {
    WestListVotes(c);
    WestListSwing(c);
    WestListed(c);
    SummaryFromParts(c, West, 130, 2);
  }

  lemma DistrictVotes()
    ensures ShippedVoteSum(DistrictStates()) == 3
  {
    VotesOfDC();
  }

  lemma DistrictSwingCount()
    ensures SwingCount(DistrictStates()) == 0
  {
  }

  lemma DistrictListed(c: Config)
    requires c.regions == ShippedRegions()
    ensures GetStatesInRegion(c, District) == DistrictStates()
  {
  }

  lemma DistrictListVotes(c: Config)
    requires c.stateData == ShippedTable() && c.regions == ShippedRegions()
    ensures ListVotes(c, GetStatesInRegion(c, District)) == Ok(3)
  {
    DistrictListed(c);
    ShippedSumW(c, DistrictStates());
    DistrictVotes();
  }

  lemma DistrictListSwing(c: Config)
    requires c.regions == ShippedRegions()
    ensures SwingCount(GetStatesInRegion(c, District)) == 0
  {
    DistrictListed(c);
    DistrictSwingCount();
  }

  /** The District summary of a configuration holding the shipped table and
      region lists. */
  lemma DistrictSummary(c: Config)
    requires c.stateData == ShippedTable() && c.regions == ShippedRegions()
    ensures GetRegionSummary(c, District) == Ok(RegionSummary(RegionName(District), 1, 3, 0))
  {
    DistrictListVotes(c);
    DistrictListSwing(c);
    DistrictListed(c);
    SummaryFromParts(c, District, 3, 0);
  }

  // ---------------------------------------------------------------------
  // The New Hampshire row
  // ---------------------------------------------------------------------

  /** The shipped New Hampshire row has 4 electoral votes but 1 district, the
      only row that breaks votes == districts + 2, so a configuration holding
      the shipped table fails its own consistency check. */
  lemma ShippedConfigRejected(c: Config)
    requires c.stateData == ShippedTable()
    ensures ShippedInfo(NH).electoralVotes == 4 && ShippedInfo(NH).congressionalDistricts == 1
    ensures forall s: State ::
      ShippedInfo(s).electoralVotes == ShippedInfo(s).congressionalDistricts + 2 <==> s != NH
    ensures !ValidateConfiguration(c)
  {
    DistrictsRule();
    assert NH in c.stateData;
    NewHampshireRow(c.stateData[NH]);
  }

  lemma NewHampshireRow(info: StateInfo)
    requires info == ShippedInfo(NH)
    ensures info.electoralVotes == 4 && info.congressionalDistricts == 1
  {
  }

  /** Every row but New Hampshire's has votes == districts + 2. */
  lemma DistrictsRule()
    ensures forall s: State :: ShippedVotes(s) == ShippedDistricts(s) + 2 <==> s != NH
  {
    forall s: State ensures ShippedVotes(s) == ShippedDistricts(s) + 2 <==> s != NH {
      match s
      case AL =>
      case AK =>
      case AZ =>
      case AR =>
      case CA =>
      case CO =>
      case CT =>
      case DE =>
      case DC =>
      case FL =>
      case GA =>
      case HI =>
      case ID =>
      case IL =>
      case IN =>
      case IA =>
      case KS =>
      case KY =>
      case LA =>
      case ME =>
      case MD =>
      case MA =>
      case MI =>
      case MN =>
      case MS =>
      case MO =>
      case MT =>
      case NE =>
      case NV =>
      case NH =>
      case NJ =>
      case NM =>
      case NY =>
      case NC =>
      case ND =>
      case OH =>
      case OK =>
      case OR =>
      case PA =>
      case RI =>
      case SC =>
      case SD =>
      case TN =>
      case TX =>
      case UT =>
      case VT =>
      case VA =>
      case WA =>
      case WV =>
      case WI =>
      case WY =>
    }
  }

  /** Every state has at least the minimum of 3 votes. */
  lemma MinimumVotes()
    ensures forall s: State :: ShippedVotes(s) >= MIN_STATE_VOTES
  {
  }

  /** The per-row conditions hold for every corrected row. */
  lemma CorrectedRows()
    ensures forall s: State ::
      && CorrectedInfo(s).electoralVotes >= MIN_STATE_VOTES
      && CorrectedInfo(s).electoralVotes == CorrectedInfo(s).congressionalDistricts + 2
      && CorrectedInfo(s).region == Some(RegionTag(s))
  {
    MinimumVotes();
    DistrictsRule();
  }

  /** With New Hampshire given its two districts every row is consistent and
      lies in the region list its tag names, so a configuration holding the
      corrected table and the shipped region lists passes the check. */
  lemma CorrectedConfigAccepted(c: Config)
    requires c.totalElectoralVotes == TOTAL_ELECTORAL_VOTES
    requires c.stateData == CorrectedTable() && c.regions == ShippedRegions()
    ensures forall s: State | s != NH :: CorrectedInfo(s) == ShippedInfo(s)
    ensures ValidateConfiguration(c)
  {
    CorrectedRows();
    RegionListsMatchTags();
    forall s: State ensures InSomeRegion(c, s) {
      var r := RegionTag(s);
      assert ShippedInfo(s).region == Some(r);
      assert r in c.regions && s in c.regions[r];
    }
  }
}

=== FILE: totals.dfy ===
/** A count per key, kept as a dictionary in insertion order: the shape of
    the calculator's per-party and per-region vote totals. */
module Totals {

  /** Key-count pairs, in insertion order. */
  type Totals<K> = seq<(K, int)>

  /** The keys of a totals dictionary. */
  function Keys<K>(t: Totals<K>): set<K> {
    set i | 0 <= i < |t| :: t[i].0
  }

  /** No key occurs twice. */
  predicate Keyed<K(==)>(t: Totals<K>) {
    forall i, j | 0 <= i < j < |t| :: t[i].0 != t[j].0
  }

  /** The count stored for k, 0 when k is absent (`totals.get(k, 0)`). */
  function TotalFor<K(==)>(t: Totals<K>, k: K): int {
    if t == [] then 0
    else if t[0].0 == k then t[0].1
    else TotalFor(t[1..], k)
  }

  /** The sum of all counts. */
  function Sum<K>(t: Totals<K>): int {
    if t == [] then 0 else t[0].1 + Sum(t[1..])
  }

  /** `totals[k] = totals.get(k, 0) + n`: the count of an existing key is
      updated in place, a new key goes at the end. */
  function Bump<K(==)>(t: Totals<K>, k: K, n: int): (r: Totals<K>)
    ensures |r| == |t| + (if k in Keys(t) then 0 else 1)
  {
    if t == [] then [(k, n)]
    else if t[0].0 == k then [(k, t[0].1 + n)] + t[1..]
    else [t[0]] + Bump(t[1..], k, n)
  }

  /** The keys of a nonempty dictionary: its first key and the keys of its tail. */
  lemma KeysCons<K>(t: Totals<K>)
    requires t != []
    ensures Keys(t) == {t[0].0} + Keys(t[1..])
  {
    forall x | x in Keys(t) ensures x in {t[0].0} + Keys(t[1..]) {
      var i :| 0 <= i < |t| && t[i].0 == x;
      if i > 0 { assert t[1..][i - 1] == t[i]; }
    }
    forall x | x in Keys(t[1..]) ensures x in Keys(t) {
      var i :| 0 <= i < |t[1..]| && t[1..][i].0 == x;
      assert t[i + 1] == t[1..][i];
    }
  }

  /** A nonempty dictionary is keyed when its tail is and its first key
      does not occur in the tail. */
  lemma KeyedCons<K>(t: Totals<K>)
    requires t != []
    ensures Keyed(t) <==> Keyed(t[1..]) && t[0].0 !in Keys(t[1..])
  {
    var rest := t[1..];
    if Keyed(t) {
      forall i, j | 0 <= i < j < |rest| ensures rest[i].0 != rest[j].0 {
        assert rest[i] == t[i + 1] && rest[j] == t[j + 1];
      }
      forall i | 0 <= i < |rest| ensures rest[i].0 != t[0].0 {
        assert rest[i] == t[i + 1];
      }
    }
    if Keyed(rest) && t[0].0 !in Keys(rest) {
      forall i, j | 0 <= i < j < |t| ensures t[i].0 != t[j].0 {
        assert t[j] == rest[j - 1];
        if i > 0 { assert t[i] == rest[i - 1]; }
      }
    }
  }

  /** Bumping adds k to the keys, keeps them unique, and grows the
      dictionary by one entry exactly when k is new. */
  lemma {:induction false} BumpKeys<K>(t: Totals<K>, k: K, n: int)
    ensures Keys(Bump(t, k, n)) == Keys(t) + {k}
    ensures Keyed(t) ==> Keyed(Bump(t, k, n))
    ensures |Bump(t, k, n)| == if k in Keys(t) then |t| else |t| + 1
  {
    var r := Bump(t, k, n);
    if t == [] {
      assert Keys(r) == {k} by { KeysCons(r); }
    } else if t[0].0 == k {
      KeysCons(t);
      KeysCons(r);
      assert r[1..] == t[1..];
      if Keyed(t) { KeyedCons(t); KeyedCons(r); }
    } else {
      var rest := Bump(t[1..], k, n);
      BumpKeys(t[1..], k, n);
      KeysCons(t);
      assert r[1..] == rest;
      KeysCons(r);
      if Keyed(t) { KeyedCons(t); KeyedCons(r); }
    }
  }

  /** Bumping k by n adds n to the count of k and leaves every other count alone. */
  lemma {:induction false} BumpTotalFor<K>(t: Totals<K>, k: K, n: int, x: K)
    ensures TotalFor(Bump(t, k, n), x) == TotalFor(t, x) + (if x == k then n else 0)
  {
    if t != [] && t[0].0 != k {
      BumpTotalFor(t[1..], k, n, x);
    }
  }

  /** Bumping by n adds n to the sum of all counts. */
  lemma {:induction false} BumpSum<K>(t: Totals<K>, k: K, n: int)
    ensures Sum(Bump(t, k, n)) == Sum(t) + n
  {
    if t != [] && t[0].0 != k {
      BumpSum(t[1..], k, n);
    }
  }

  /** A key that is absent counts 0. */
  lemma {:induction false} AbsentCountsZero<K>(t: Totals<K>, k: K)
    requires k !in Keys(t)
    ensures TotalFor(t, k) == 0
  {
    if t != [] {
      KeysCons(t);
      AbsentCountsZero(t[1..], k);
    }
  }

  /** Every count is non-negative. */
  predicate NonNegative<K>(t: Totals<K>) {
    forall i | 0 <= i < |t| :: t[i].1 >= 0
  }

  /** In a keyed dictionary the count of an entry's key is that entry's count. */
  lemma {:induction false} KeyedLookup<K>(t: Totals<K>, i: nat)
    requires Keyed(t) && i < |t|
    ensures TotalFor(t, t[i].0) == t[i].1
  {
    if i > 0 {
      KeyedCons(t);
      assert t[1..][i - 1] == t[i];
      KeyedLookup(t[1..], i - 1);
    }
  }

  /** A keyed dictionary whose every lookup is non-negative has no negative entry. */
  lemma NonNegativeFromLookups<K>(t: Totals<K>)
    requires Keyed(t)
    requires forall k :: TotalFor(t, k) >= 0
    ensures NonNegative(t)
  {
    forall i | 0 <= i < |t| ensures t[i].1 >= 0 {
      KeyedLookup(t, i);
    }
  }

  /** With non-negative counts, each count lies between 0 and the sum. */
  lemma {:induction false} CountBoundedBySum<K>(t: Totals<K>, k: K)
    requires NonNegative(t)
    ensures 0 <= TotalFor(t, k) <= Sum(t)
  {
    if t != [] {
      assert NonNegative(t[1..]) by {
        forall i | 0 <= i < |t[1..]| ensures t[1..][i].1 >= 0 { assert t[1..][i] == t[i + 1]; }
      }
      CountBoundedBySum(t[1..], k);
    }
  }

  /** With non-negative counts, the counts of two different keys add up to
      at most the sum. */
  lemma {:induction false} TwoCountsBoundedBySum<K>(t: Totals<K>, k1: K, k2: K)
    requires NonNegative(t)
    requires k1 != k2
    ensures TotalFor(t, k1) + TotalFor(t, k2) <= Sum(t)
  {
    if t != [] {
      assert NonNegative(t[1..]) by {
        forall i | 0 <= i < |t[1..]| ensures t[1..][i].1 >= 0 { assert t[1..][i] == t[i + 1]; }
      }
      if t[0].0 == k1 {
        CountBoundedBySum(t[1..], k2);
      } else if t[0].0 == k2 {
        CountBoundedBySum(t[1..], k1);
      } else {
        TwoCountsBoundedBySum(t[1..], k1, k2);
      }
    }
  }
}

=== FILE: validation.dfy ===
/** The calculator's view of a results dictionary: which states are called,
    which are not, and the three checks every calculation runs first. */
module Validation {
  import opened Enums
  import opened Results
  import opened Errors
  import opened Weights
  import opened Config
  import opened Calculator

  /** One item of a results dictionary: a key and the party it maps to. */
  type Entry = (Key, Call)

  /** A results dictionary, in its iteration order. */
  type Assignment = seq<Entry>

  /** Dictionary keys are unique. */
  predicate IsDict(a: Assignment) {
    forall i, j | 0 <= i < j < |a| :: a[i].0 != a[j].0
  }

  /** `party is not None`. */
  predicate NotNone(v: Call) {
    !v.Uncalled?
  }

  /** A key is a state the engine knows and it carries at least 3 votes. */
  predicate ValidState(e: Engine, k: Key)
    ensures ValidState(e, k) ==> k.StateKey? && Get(e.votes, k.state) >= MIN_STATE_VOTES
    ensures Valid(e) ==> (ValidState(e, k) <==> k.StateKey?)
  {
    k.StateKey? && k.state in e.votes && e.votes[k.state] >= 3
  }

  /** A value is a party or None. */
  predicate ValidParty(v: Call)
    ensures ValidParty(v) <==> v.Uncalled? || v.Called?
  {
    !v.ForeignValue?
  }

  /** The states the dictionary calls for some party (any non-None value). */
  function CalledStates(a: Assignment): (ss: set<State>)
    ensures forall s :: s in ss <==> exists i | 0 <= i < |a| :: a[i].0 == StateKey(s) && NotNone(a[i].1)
  {
    set i | 0 <= i < |a| && a[i].0.StateKey? && NotNone(a[i].1) :: a[i].0.state
  }

  /** The weight summed over the called items, in iteration order; a key
      the engine does not know weighs 0. */
  function CalledWeight(e: Engine, a: Assignment): (r: int)
    ensures (forall s: State :: Get(e.votes, s) >= 0) ==> r >= 0
  {
    if a == [] then 0
    else
      (if a[0].0.StateKey? && NotNone(a[0].1) then Get(e.votes, a[0].0.state) else 0)
      + CalledWeight(e, a[1..])
  }

  /** The tail of a dictionary is a dictionary. */
  lemma TailIsDict(a: Assignment)
    requires IsDict(a) && a != []
    ensures IsDict(a[1..])
  {
    var rest := a[1..];
    forall i, j | 0 <= i < j < |rest| ensures rest[i].0 != rest[j].0 {
      assert rest[i] == a[i + 1] && rest[j] == a[j + 1];
    }
  }

  /** The first key of a dictionary does not occur again in its tail. */
  lemma HeadNotInTail(a: Assignment)
    requires IsDict(a) && a != [] && a[0].0.StateKey?
    ensures a[0].0.state !in CalledStates(a[1..])
  {
    var rest := a[1..];
    forall i | 0 <= i < |rest| ensures rest[i].0 != a[0].0 {
      assert rest[i] == a[i + 1];
    }
  }

  /** The called states of a nonempty dictionary: its first item's state,
      when that item is called, and the called states of its tail. */
  lemma CalledStatesCons(a: Assignment)
    requires a != []
    ensures CalledStates(a) ==
      (if a[0].0.StateKey? && NotNone(a[0].1) then {a[0].0.state} else {}) + CalledStates(a[1..])
  {
    var rest := a[1..];
    var head: set<State> := if a[0].0.StateKey? && NotNone(a[0].1) then {a[0].0.state} else {};
    forall x ensures x in CalledStates(a) <==> x in head + CalledStates(rest) {
      if x in CalledStates(a) && x !in head {
        var i :| 0 <= i < |a| && a[i].0 == StateKey(x) && NotNone(a[i].1);
        assert i > 0;
        assert rest[i - 1] == a[i];
      }
      if x in CalledStates(rest) {
        var i :| 0 <= i < |rest| && rest[i].0 == StateKey(x) && NotNone(rest[i].1);
        assert a[i + 1] == rest[i];
      }
    }
  }

  /** The called weight is the weight of the set of called states: the
      iteration order of the dictionary does not matter. */
  lemma {:induction false} CalledWeightIsSum(e: Engine, a: Assignment)
    requires IsDict(a)
    ensures CalledWeight(e, a) == SumOver(e.votes, CalledStates(a))
  {
    if a == [] {
      assert CalledStates(a) == {};
      SumOverEmpty(e.votes);
    } else {
      var rest := a[1..];
      TailIsDict(a);
      CalledWeightIsSum(e, rest);
      CalledStatesCons(a);
      var called := CalledStates(rest);
      if a[0].0.StateKey? && NotNone(a[0].1) {
        var s := a[0].0.state;
        HeadNotInTail(a);
        assert CalledStates(a) == called + {s};
        assert CalledWeight(e, a) == Get(e.votes, s) + CalledWeight(e, rest);
        SumOverAdd(e.votes, called, s);
      } else {
        assert CalledStates(a) == called;
        assert CalledWeight(e, a) == CalledWeight(e, rest);
      }
    }
  }

  /** The states of the engine that no item calls: those absent from the
      dictionary and those it maps to None. */
  function UncalledStates(e: Engine, a: Assignment): (u: set<State>)
    ensures forall s :: s in u <==>
      s in e.votes && forall i | 0 <= i < |a| && a[i].0 == StateKey(s) :: !NotNone(a[i].1)
  {
    e.votes.Keys - CalledStates(a)
  }

  /** Called and uncalled states split the engine's states between them. */
  lemma UncalledPartition(e: Engine, a: Assignment)
    ensures UncalledStates(e, a) !! CalledStates(a)
    ensures UncalledStates(e, a) + (CalledStates(a) * e.votes.Keys) == e.votes.Keys
  {
  }

  /** The three checks, in order: unknown states, then values that are not
      parties, then a called weight above the 538 total. */
  function ValidateInputs(e: Engine, a: Assignment): (r: Check<Error>)
    ensures r.Fail? && r.error.InvalidStateError? <==>
      exists i | 0 <= i < |a| :: !ValidState(e, a[i].0)
    ensures r.Fail? && r.error.InvalidStateError? ==>
      forall k :: k in r.error.states <==> exists i | 0 <= i < |a| :: a[i].0 == k && !ValidState(e, k)
    ensures r.Fail? && r.error.InvalidPartyError? <==>
      (forall i | 0 <= i < |a| :: ValidState(e, a[i].0)) &&
      exists i | 0 <= i < |a| :: !ValidParty(a[i].1)
    ensures r.Fail? && r.error.InvalidPartyError? ==>
      forall v :: v in r.error.parties <==> exists i | 0 <= i < |a| :: a[i].1 == v && !ValidParty(v)
    ensures r.Fail? && r.error.InvalidVoteCountError? <==>
      (forall i | 0 <= i < |a| :: ValidState(e, a[i].0) && ValidParty(a[i].1)) &&
      CalledWeight(e, a) > TOTAL_ELECTORAL_VOTES
    ensures r.Fail? ==>
      r.error.InvalidStateError? || r.error.InvalidPartyError? || r.error.InvalidVoteCountError?
    ensures r.Pass? <==>
      (forall i | 0 <= i < |a| :: ValidState(e, a[i].0) && ValidParty(a[i].1)) &&
      CalledWeight(e, a) <= TOTAL_ELECTORAL_VOTES
  {
    var badStates := set i | 0 <= i < |a| && !ValidState(e, a[i].0) :: a[i].0;
    var badParties := set i | 0 <= i < |a| && !ValidParty(a[i].1) :: a[i].1;
    if exists i | 0 <= i < |a| :: !ValidState(e, a[i].0) then
      Fail(InvalidStateError(badStates))
    else if exists i | 0 <= i < |a| :: !ValidParty(a[i].1) then
      Fail(InvalidPartyError(badParties))
    else if CalledWeight(e, a) > TOTAL_ELECTORAL_VOTES then
      var called := CalledWeight(e, a);
      Fail(InvalidVoteCountError(CalledExceedsTotal(called, TOTAL_ELECTORAL_VOTES)))
    else
      Pass
  }

  /** A validated dictionary names only states, each once, and calls states
      worth no more than 538 together. */
  lemma PassedInputs(e: Engine, a: Assignment)
    requires IsDict(a)
    requires ValidateInputs(e, a).Pass?
    ensures forall i | 0 <= i < |a| :: a[i].0.StateKey? && a[i].0.state in e.votes && !a[i].1.ForeignValue?
    ensures SumOver(e.votes, CalledStates(a)) <= TOTAL_ELECTORAL_VOTES
  {
    CalledWeightIsSum(e, a);
  }

  /** After validation, the weight of the uncalled states and the called
      weight together make up the weight of the whole table. */
  lemma UncalledWeight(e: Engine, a: Assignment)
    requires IsDict(a)
    requires ValidateInputs(e, a).Pass?
    ensures SumOver(e.votes, UncalledStates(e, a)) + CalledWeight(e, a) == SumOver(e.votes, e.votes.Keys)
  {
    PassedInputs(e, a);
    CalledWeightIsSum(e, a);
    var called := CalledStates(a);
    assert called <= e.votes.Keys by {
      forall s | s in called ensures s in e.votes {
        var i :| 0 <= i < |a| && a[i].0 == StateKey(s) && NotNone(a[i].1);
      }
    }
    SumOverComplement(e.votes, e.votes.Keys, called);
  }

  /** When the weight table sums to at most 538 (as a table that passed the
      configuration check does), the vote-count error is unreachable: a
      dictionary calls each state at most once. */
  lemma VoteCountErrorUnreachable(e: Engine, a: Assignment)
    requires IsDict(a)
    requires forall s: State :: Get(e.votes, s) >= 0
    requires SumOver(e.votes, StateSet()) <= TOTAL_ELECTORAL_VOTES
    ensures !(ValidateInputs(e, a).Fail? && ValidateInputs(e, a).error.InvalidVoteCountError?)
  {
    CalledWeightIsSum(e, a);
    SumOverMonotone(e.votes, CalledStates(a), StateSet());
  }
}

=== FILE: weights.dfy ===
/** Sums of electoral-vote weights over sets of states.  A set of states is
    summed in declaration order, so every sum is a plain fold over a
    sequence; the lemmas here show that the order never matters. */
module Weights {
  import opened Enums

  /** The weight of a state in a weight table, 0 when the state is absent
      (the `dict.get(state, 0)` lookup). */
  function Get(w: map<State, int>, s: State): int {
    if s in w then w[s] else 0
  }

  /** The elements of xs that belong to ss, in their order in xs. */
  function Filter(xs: seq<State>, ss: set<State>): (r: seq<State>)
    ensures forall x :: x in r <==> x in xs && x in ss
    ensures Distinct(xs) ==> Distinct(r)
  {
    if xs == [] then []
    else (if xs[0] in ss then [xs[0]] else []) + Filter(xs[1..], ss)
  }

  /** The states of ss, each once, in declaration order. */
  function Enumerate(ss: set<State>): (r: seq<State>)
    ensures Distinct(r)
    ensures forall x :: x in r <==> x in ss
    ensures |r| == |ss|
  {
    AllStatesComplete();
    AllStatesDistinct();
    var r := Filter(AllStates, ss);
    DistinctCardinality(r);
    assert Elements(r) == ss;
    r
  }

  lemma {:induction false} FilterKeepsAll(xs: seq<State>, ss: set<State>)
    requires forall x | x in xs :: x in ss
    ensures Filter(xs, ss) == xs
  {
    if xs != [] {
      FilterKeepsAll(xs[1..], ss);
      assert [xs[0]] + xs[1..] == xs;
    }
  }

  /** All states enumerate in declaration order. */
  lemma EnumerateAll()
    ensures Enumerate(StateSet()) == AllStates
  {
    FilterKeepsAll(AllStates, StateSet());
  }

  /** The summed weight of a sequence of states. */
  function SumW(w: map<State, int>, xs: seq<State>): int {
    if xs == [] then 0 else Get(w, xs[0]) + SumW(w, xs[1..])
  }

  /** The summed weight of a set of states. */
  function SumOver(w: map<State, int>, ss: set<State>): int {
    SumW(w, Enumerate(ss))
  }

  /** Weights whose every entry for ss is at least lo. */
  predicate AtLeast(w: map<State, int>, ss: set<State>, lo: int) {
    forall s | s in ss :: Get(w, s) >= lo
  }

  lemma {:induction false} SumWConcat(w: map<State, int>, a: seq<State>, b: seq<State>)
    ensures SumW(w, a + b) == SumW(w, a) + SumW(w, b)
  {
    if a == [] {
      assert a + b == b;
    } else {
      assert (a + b)[1..] == a[1..] + b;
      SumWConcat(w, a[1..], b);
    }
  }

  /** The sum of a prefix one element longer adds that element. */
  lemma SumWPrefixStep(w: map<State, int>, xs: seq<State>, k: nat)
    requires k < |xs|
    ensures SumW(w, xs[..k + 1]) == SumW(w, xs[..k]) + Get(w, xs[k])
  {
    assert xs[..k + 1] == xs[..k] + [xs[k]];
    SumWConcat(w, xs[..k], [xs[k]]);
  }

  lemma {:induction false} FilterUnion(w: map<State, int>, xs: seq<State>, a: set<State>, b: set<State>)
    requires a !! b
    ensures SumW(w, Filter(xs, a + b)) == SumW(w, Filter(xs, a)) + SumW(w, Filter(xs, b))
  {
    if xs != [] {
      FilterUnion(w, xs[1..], a, b);
      var h := xs[0];
      var ra := if h in a then [h] else [];
      var rb := if h in b then [h] else [];
      var rab := if h in a + b then [h] else [];
      SumWConcat(w, rab, Filter(xs[1..], a + b));
      SumWConcat(w, ra, Filter(xs[1..], a));
      SumWConcat(w, rb, Filter(xs[1..], b));
    }
  }

  /** The weight of a disjoint union is the sum of the weights of its parts. */
  lemma SumOverUnion(w: map<State, int>, a: set<State>, b: set<State>)
    requires a !! b
    ensures SumOver(w, a + b) == SumOver(w, a) + SumOver(w, b)
  {
    FilterUnion(w, AllStates, a, b);
  }

  /** Splitting a set by another divides its weight between the two parts. */
  lemma SumOverSplit(w: map<State, int>, ss: set<State>, split: set<State>)
    ensures SumOver(w, ss) == SumOver(w, ss - split) + SumOver(w, ss * split)
  {
    assert ss == (ss - split) + (ss * split);
    SumOverUnion(w, ss - split, ss * split);
  }

  /** A subset and its complement share out the weight of the whole. */
  lemma SumOverComplement(w: map<State, int>, all: set<State>, part: set<State>)
    requires part <= all
    ensures SumOver(w, all - part) + SumOver(w, part) == SumOver(w, all)
  {
    assert all == (all - part) + part;
    SumOverUnion(w, all - part, part);
  }

  lemma SumOverEmpty(w: map<State, int>)
    ensures SumOver(w, {}) == 0
  {
    assert Enumerate({}) == [];
  }

  lemma SumOverSingleton(w: map<State, int>, x: State)
    ensures SumOver(w, {x}) == Get(w, x)
  {
    var r := Enumerate({x});
    assert r[0] in r;
    SumWSingle(w, r);
  }

  lemma SumWSingle(w: map<State, int>, r: seq<State>)
    requires |r| == 1
    ensures SumW(w, r) == Get(w, r[0])
  {
    assert r[1..] == [];
  }

  /** Adding a state to a set adds its weight. */
  lemma SumOverAdd(w: map<State, int>, ss: set<State>, x: State)
    requires x !in ss
    ensures SumOver(w, ss + {x}) == SumOver(w, ss) + Get(w, x)
  {
    SumOverUnion(w, ss, {x});
    SumOverSingleton(w, x);
  }

  /** Removing a member from a set removes its weight. */
  lemma SumOverRemove(w: map<State, int>, ss: set<State>, x: State)
    requires x in ss
    ensures SumOver(w, ss) == SumOver(w, ss - {x}) + Get(w, x)
  {
    assert ss == (ss - {x}) + {x};
    SumOverAdd(w, ss - {x}, x);
  }

  /** The weight of a duplicate-free sequence is the weight of its set of elements. */
  lemma {:induction false} SumOverSeq(w: map<State, int>, ys: seq<State>)
    requires Distinct(ys)
    ensures SumOver(w, Elements(ys)) == SumW(w, ys)
  {
    if ys == [] {
      SumOverEmpty(w);
      assert Elements(ys) == {};
    } else {
      var rest := ys[1..];
      assert Distinct(rest);
      SumOverSeq(w, rest);
      assert Elements(ys) == Elements(rest) + {ys[0]};
      assert ys[0] !in rest;
      SumOverAdd(w, Elements(rest), ys[0]);
    }
  }

  lemma {:induction false} FilterNonNegative(w: map<State, int>, xs: seq<State>, ss: set<State>)
    requires AtLeast(w, ss, 0)
    ensures SumW(w, Filter(xs, ss)) >= 0
  {
    if xs != [] {
      FilterNonNegative(w, xs[1..], ss);
      SumWConcat(w, if xs[0] in ss then [xs[0]] else [], Filter(xs[1..], ss));
    }
  }

  /** With non-negative weights, a subset never weighs more than its superset. */
  lemma SumOverMonotone(w: map<State, int>, a: set<State>, b: set<State>)
    requires a <= b
    requires AtLeast(w, b, 0)
    ensures SumOver(w, a) <= SumOver(w, b)
  {
    assert b == a + (b - a);
    SumOverUnion(w, a, b - a);
    FilterNonNegative(w, AllStates, b - a);
  }
}
